=== FILE: README.md ===
# network-monitor in Dafny

A model of the decision logic of network-monitor, a Go service that pings a list of
targets over ICMP (RFC 792) every interval. It counts consecutive losses per target and
runs a traceroute when a streak crosses a threshold. Sockets, goroutines and metrics are
left out. What remains is modelled as immutable values and pure step functions:

- the 8-byte probe timestamp codec (`timestamp.dfy`, with calendar helpers in
  `clock.dfy`);
- target-list parsing, in both copies (`strings.dfy`, `ips.dfy`, `config.dfy`);
- the per-target trackers:
  - the generic `Tracker[T]` (`tracker.dfy`);
  - the loss-streak counter (`timeout_tracker.dfy`);
  - the sorted `PingTracker` (`ping_tracker.dfy`);
  - the reply flags of the two fastping callbacks (`flags.dfy`, `reply_tracker.dfy`,
    `pinger.dfy`);
- one ICMP probe: option defaults, the Echo request and reply classification
  (`icmp.dfy`, `icmp_ping.dfy`);
- one interval of the ping loop: run checks, sequence allocation, the reply filter and
  the duration rule (`ping_loop.dfy`);
- the traceroute TTL walk over abstract per-TTL message lists (`traceroute.dfy`);
- the manager policy (`manager.dfy`):
  - the scheduled-trace countdown;
  - the zero-duration filter;
  - the 192.168 skip;
  - the 03:00–03:05 UTC pause, placed on the host's local date;
  - threshold escalation with reset-on-success.

Everything the Go code takes from its environment is a parameter:

- `time.Now` is an `int64` count of Unix nanoseconds.
- `rand.Intn` and `os.Getpid` are given values.
- `net.LookupAddr` is a function.
- The host's UTC offset, which `time.Now()` carries in Go, is an `offset` in nanoseconds.
- `net.ResolveIPAddr` and the outcome of each traceroute are fields of `Manager.Net`.
- Go visits a map in an unspecified order. Each walk over a map takes that order as a
  sequence `order` with `Flags.Enumerates(order, keys)`, and the contracts hold for every
  such order.

Integer widths are explicit where they matter:

- `int64`/`uint64` in the codec;
- the 16-bit identifier and sequence fields of ICMP Echo: `Icmp.Wire16` and
  `Icmp.OnWire` model the truncation `Marshal` applies to them;
- the 64-bit wrap of `time.Duration(interval) * time.Second`;
- the saturation of `time.Time.Sub`.

Four behaviours of the code are easy to misread; the model follows the code in each:

- Escalation resets a streak only when `runTrace` succeeds
  (internal/monitoring/manager.go:94-96), so a 192.168 target keeps counting forever.
- A read that fails after the read deadline does not end the probe: the loop skips the
  error and keeps reading (finding 3).
- The sequence counter gives successive intervals disjoint ranges, but the 16-bit values
  on the wire repeat after 65536 probes (finding 1).
- The countdown is reset whenever it is at or below zero, not only at zero
  (internal/monitoring/manager.go:72-74). With a frequency of zero or below, nothing is
  ever traced.

## Model

| member | source | states |
|---|---|---|
| Timestamp.TimeToBinary | internal/utils/timestamp.go:8-13 | always exactly 8 bytes, whose big-endian value is `uint64(UnixNano)`, the two's-complement reading of the instant |
| Timestamp.TimeToBinaryDigits | internal/utils/timestamp.go:9-11 | byte i of the output is base-256 digit 7 - i of `uint64(UnixNano)`, i.e. byte i of its big-endian encoding |
| Timestamp.BinaryToTime | internal/utils/timestamp.go:15-19 | needs at least 8 bytes (the source panics on fewer) and reads only the first 8: the result's two's-complement reading is their big-endian value |
| Timestamp.ToSigned | internal/utils/timestamp.go:16 | `int64(u)` is the signed value whose `uint64` reading is `u` |
| Timestamp.SignedUnsignedInverse | internal/utils/timestamp.go:11-16 | `int64(uint64(ts)) == ts` for every int64 |
| Timestamp.DecodeEncode | internal/utils/timestamp.go:11-16 | decoding an n-byte big-endian encoding gives the value modulo 256^n |
| Timestamp.EncodeDecode | internal/utils/timestamp.go:11-16 | encoding a decoded byte string to its own length gives the bytes back |
| Timestamp.EncodeDigit | internal/utils/timestamp.go:11 | byte i of an n-byte big-endian encoding is base-256 digit n - 1 - i |
| Timestamp.TimeRoundTrip | internal/utils/timestamp.go:8-19 | `BinaryToTime(TimeToBinary(t)) == t` to the nanosecond, for every int64 instant |
| Timestamp.BytesRoundTrip | internal/utils/timestamp.go:8-19 | `TimeToBinary(BinaryToTime(b))` is the first 8 bytes of `b` |
| Timestamp.DecodeIgnoresTail | internal/utils/timestamp.go:16 | bytes after the eighth never change the decoded instant |
| Clock.EpochIsDayZero | internal/utils/timestamp_test.go:10 | the calendar conversion puts 1970-01-01T00:00:00Z at nanosecond 0 |
| Clock.ChristmasLunchInstant | internal/utils/timestamp_test.go:10 | 2025-12-25T13:00:00Z is 1766667600000000000 ns |
| Clock.ChristmasLunchBytes | internal/utils/timestamp_test.go:9-21 | that instant encodes to [24,132,118,210,110,49,32,0] |
| Clock.ChristmasLunchDecodes | internal/utils/timestamp_test.go:23-29 | those bytes decode to that instant |
| Strings.SplitShape | internal/utils/get_ips.go:9 | `strings.Split` gives one more piece than there are commas, and no piece holds a comma |
| Strings.SplitPiecesFromInput | internal/utils/get_ips.go:9 | every character of every piece comes from the input |
| Strings.SplitJoin | internal/utils/get_ips.go:9 | joining the pieces with the separator restores the input |
| Strings.SplitWithoutSeparator | internal/utils/get_ips.go:9 | text without the separator is a single piece |
| Strings.SplitAtSeparator | internal/utils/get_ips.go:9 | the first separator ends the first piece |
| Strings.JoinSplit | internal/utils/get_ips.go:9 | splitting separator-free pieces joined by the separator gives the pieces back |
| Strings.TrimLeftShape | internal/utils/get_ips.go:13 | left trimming drops a white-space prefix, keeps the rest, and stops at non-space |
| Strings.TrimRightShape | internal/utils/get_ips.go:13 | right trimming drops a white-space suffix, keeps the rest, and stops at non-space |
| Strings.TrimSpaceContract | internal/utils/get_ips.go:13 | the trimmed text has no white space at either end, is empty iff the input is all white space, and has only input characters |
| Strings.TrimSpaceFixesTrimmed | internal/utils/get_ips.go:13 | trimming text without white space at its ends changes nothing |
| Strings.TrimSpaceIdempotent | internal/utils/get_ips.go:13 | trimming twice is trimming once |
| Strings.TrimLeftPadded | internal/utils/get_ips.go:13 | left trimming removes exactly a white-space prefix in front of a non-space |
| Strings.TrimRightPadded | internal/utils/get_ips.go:13 | right trimming removes exactly a white-space suffix after a non-space |
| Strings.TrimSpacePadded | internal/utils/get_ips.go:13 | padding around a non-empty trimmed text is exactly what trimming removes |
| Strings.LessIrreflexive | internal/monitoring/ping_tracker.go:43-45 | no string sorts before itself under Go's `<` |
| Strings.LessTransitive | internal/monitoring/ping_tracker.go:43-45 | Go's string order is transitive |
| Strings.LessTotal | internal/monitoring/ping_tracker.go:43-45 | two distinct strings are always ordered one way or the other |
| Strings.LessAsymmetric | internal/monitoring/ping_tracker.go:43-45 | `a < b` excludes `b < a` |
| Ips.TrimAll | internal/utils/get_ips.go:12-13 | one trimmed piece per piece, in order |
| Ips.KeepNonBlankShape | internal/utils/get_ips.go:15-17 | the blank filter keeps no more strings than it was given and no empty string |
| Ips.KeepNonBlankFrom | internal/utils/get_ips.go:15-17 | every kept string is one of the inputs |
| Ips.KeepNonBlankEmpty | internal/utils/get_ips.go:15-22 | nothing is kept exactly when every input is empty |
| Ips.TrimAllSnoc | internal/utils/get_ips.go:12-13 | trimming one more piece appends its trimmed form |
| Ips.KeepNonBlankSnoc | internal/utils/get_ips.go:15-17 | one more input is appended iff it is non-empty, so the order is kept |
| Ips.KeepNonBlankAll | internal/utils/get_ips.go:15-17 | when no input is empty, all are kept in order |
| Ips.TargetsOfJoin | internal/utils/get_ips.go:9-18 | parsing comma-joined pieces gives their trimmed forms minus the blanks, in left-to-right order |
| Ips.TargetsWellFormed | internal/utils/get_ips.go:9-18 | every target is non-empty, has no white space at its ends and no comma, and there are at most commas + 1 of them |
| Ips.JoinOfBlankPieces | internal/utils/get_ips.go:9-22 | pieces that are all blank join to text holding only commas and white space |
| Ips.BlankJoinHasBlankPieces | internal/utils/get_ips.go:9-22 | conversely, comma-free pieces (as a split gives) that join to only commas and white space are all blank |
| Ips.NoTargetsIffBlank | internal/utils/get_ips.go:20-22 | no target is found exactly when the input is only commas and white space (e.g. "" or " , ") |
| Ips.CollectTargets | internal/utils/get_ips.go:12-18 | the loop builds filter(non-blank, map(trim, pieces)) |
| Ips.Targets | internal/utils/get_ips.go:8-18 | the trimmed non-blank pieces of the comma split, in order; stated by TargetsOfJoin, TargetsWellFormed, NoTargetsIffBlank and CollectTargets |
| Ips.GetIps | internal/utils/get_ips.go:8-25 | succeeds iff the reference parse is non-empty and then returns it; otherwise fails with the "no valid IP" error |
| Config.GetIpsContract | internal/config/opts.go:69-86 | the config copy fails exactly on comma-and-space-only text; otherwise gives non-empty, trimmed, comma-free targets, at most commas + 1 of them |
| Config.ApplyLogLevel | internal/config/opts.go:57-66 | "DEBUG", "INFO", "WARN", "ERROR" select their level; any other text keeps the current one |
| Config.LevelNameRoundTrip | internal/config/opts.go:42-66 | a level's own name selects that level back, whatever was set |
| Config.GetIps | internal/config/opts.go:69-86 | the config copy of the parser; stated by GetIpsContract and the fixtures below |
| Config.ParseFlags | internal/config/opts.go:39-67 | fails iff the given (or built-in) list does not parse; otherwise the list is the parse, a given interval or port replaces the current one, a given level name selects its level and any other text keeps the current level, and each absent flag keeps the current value |
| Config.NewOpts | internal/config/opts.go:20-37 | the built-in options with the command line applied; stated by NewOptsDefaults |
| Config.PaddedEntry | internal/config/opts.go:74 | an entry written after ", " trims back to the entry |
| Config.JoinFive | internal/config/opts.go:11 | a list written "a, b, c, d, e" is the comma-join of the entries, the last four with a leading space |
| Config.GetIpsFive | internal/config/opts.go:69-86 | such a list parses to its five entries, in order |
| Config.DefaultIpsParse | internal/config/opts.go:11-25 | the built-in list parses to the five addresses 192.168.68.1, 192.168.1.1, 1.1.1.1, 8.8.8.8, 79.79.79.79 |
| Config.NewOptsDefaults | internal/config/opts.go:20-37 | with no flags the options are those addresses, interval 15, level INFO, port "8080" |
| Config.GetIpsOne | internal/config/opts_getIps_test.go:7-21 | "8.8.8.8" parses to ["8.8.8.8"] |
| Config.GetIpsTwo | internal/config/opts_getIps_test.go:23-42 | "8.8.8.8,9.12.9.4" parses to both, in order |
| Config.GetIpsTrims | internal/config/opts_getIps_test.go:44-59 | " 8.8.8.8 , " parses to ["8.8.8.8"] |
| Config.GetIpsPaddedPair | internal/config/opts.go:69-86 | "8.8.8.8, 9.9.9.9 ," parses to both, trimmed, in order |
| Config.GetIpsBlank | internal/config/opts.go:81-83 | "" and " , " are refused |
| Flags.CollectUnrepliedMembers | internal/utils/pinger.go:57-58 | the collected addresses are exactly the visited keys whose flag is false, without repeats when the walk has none |
| Flags.CollectUnrepliedSnoc | internal/utils/pinger.go:57-58 | visiting one more key appends it iff its flag is false |
| Flags.CollectUnrepliedExactly | internal/monitoring/ping_tracker.go:36-41 | a walk over every key reports each unreplied address exactly once |
| Flags.ClearAll | internal/utils/pinger.go:66-68 | every tracked flag becomes false and no address is added or removed |
| Flags.ClearAllUnreplied | internal/monitoring/ping_tracker.go:60-62 | after the reset every tracked address counts as unreplied |
| Flags.DistinctCardinality | internal/monitoring/pinger.go:69-80 | a repeat-free report has as many entries as there are silent addresses |
| Tracker.New | internal/utils/tracker.go:10-14 | a new tracker holds no key |
| Tracker.Get | internal/utils/tracker.go:16-20 | the stored value, or the zero value for an unset key; stated by GetUnset, GetNew, GetAfterSet and GetAllAgrees |
| Tracker.Set | internal/utils/tracker.go:32-36 | stores one key; stated by GetAfterSet and KeysOnlyGrow |
| Tracker.SetAll | internal/utils/tracker.go:38-44 | overwrites every tracked key; stated by GetAfterSetAll and KeysOnlyGrow |
| Tracker.GetAll | internal/utils/tracker.go:22-30 | the copy has exactly the tracked keys |
| Tracker.GetUnset | internal/utils/tracker.go:16-20 | a key never set reads as the zero value |
| Tracker.GetNew | internal/utils/tracker.go:10-20 | a new tracker reads the zero value for every key |
| Tracker.GetAfterSet | internal/utils/tracker.go:32-36 | after `Set(k, v)`, k reads v, every other key reads as before, and only k is added |
| Tracker.GetAfterSetAll | internal/utils/tracker.go:38-44 | `SetAll(v)` maps every tracked key to v, adds no key, and untracked keys still read zero |
| Tracker.GetAllAgrees | internal/utils/tracker.go:16-30 | the copy agrees with `Get` on every key, tracked or not |
| Tracker.KeysOnlyGrow | internal/utils/tracker.go:5-44 | after any history the keys are the initial ones plus exactly those some `Set` named; nothing removes a key |
| Tracker.ReadsChangeNothing | internal/utils/tracker.go:16-30 | a history ends in the same state as its writes alone: `Get` and `GetAll` leave the state unchanged |
| TimeoutTracker.Register | internal/monitoring/timeout_tracker.go:18-21 | each listed address gets flag false and streak 0; others keep their values |
| TimeoutTracker.New | internal/monitoring/timeout_tracker.go:12-24 | exactly the given addresses are tracked, each with flag false and streak 0 |
| TimeoutTracker.ReplyReceived | internal/monitoring/timeout_tracker.go:26-28 | only that address's flag becomes true; an untracked address becomes tracked; streaks unchanged |
| TimeoutTracker.ReplyReceivedIdempotent | internal/monitoring/timeout_tracker.go:26-28 | receiving the same reply twice is receiving it once |
| TimeoutTracker.ResetCount | internal/monitoring/timeout_tracker.go:55-57 | only that address's streak becomes 0; flags untouched |
| TimeoutTracker.Advance | internal/monitoring/timeout_tracker.go:37-50 | after a round all flags are false and the tracked set is unchanged |
| TimeoutTracker.ReportedSnoc | internal/monitoring/timeout_tracker.go:43-44 | one more loss appends the address with its streak + 1 |
| TimeoutTracker.PartialCountsSnoc | internal/monitoring/timeout_tracker.go:40-46 | visiting one more address stores its new streak; until then it reads its old one |
| TimeoutTracker.PartialCountsDone | internal/monitoring/timeout_tracker.go:37-48 | after visiting every address the streaks are the round's, whatever the order |
| TimeoutTracker.NextUnvisited | internal/monitoring/timeout_tracker.go:38 | the next address of a walk over the flags is tracked and not yet visited |
| TimeoutTracker.RoundDone | internal/monitoring/timeout_tracker.go:48-50 | a finished walk, then clearing every flag, leaves the round's state |
| TimeoutTracker.Visit | internal/monitoring/timeout_tracker.go:39-47 | one loop iteration extends the stored streaks and the report by that address |
| TimeoutTracker.GetTimeouts | internal/monitoring/timeout_tracker.go:35-53 | the loop leaves the round's state and reports the silent addresses in visiting order with their new streaks |
| TimeoutTracker.ReportedExactly | internal/monitoring/timeout_tracker.go:38-47 | each silent address is reported exactly once with previous streak + 1, which is stored; a replied address is not reported and goes back to 0 |
| TimeoutTracker.MissStreak | internal/monitoring/timeout_tracker.go:37-50 | k silent rounds grow the streak by exactly k |
| TimeoutTracker.StreakRestartsAfterReply | internal/monitoring/timeout_tracker.go:37-50 | after a round with a reply, the next silent rounds report streaks 1, 2, … again |
| TimeoutTracker.FirstRoundAfterNew | internal/monitoring/timeout_tracker.go:12-44 | a fresh tracker's first silent round gives every address streak 1 |
| PingTracker.ReplyReceived | internal/monitoring/ping_tracker.go:26-30 | the address's flag becomes true; other flags and both lists unchanged |
| PingTracker.InsertSorted | internal/monitoring/ping_tracker.go:43-45 | insertion into a strictly descending list keeps it strictly descending and adds exactly the element |
| PingTracker.SortDescendingSorts | internal/monitoring/ping_tracker.go:43-45 | the sort is a strictly descending permutation of distinct input |
| PingTracker.DescendingUnique | internal/monitoring/ping_tracker.go:43-45 | two strictly descending lists with the same elements are equal, so the sort's result is unique |
| PingTracker.GetTimeouts | internal/monitoring/ping_tracker.go:32-55 | exactly the unreplied keys, each once, in strictly descending order; flags untouched; `prevTimeouts` becomes the result |
| PingTracker.GetTimeoutsOrderIndependent | internal/monitoring/ping_tracker.go:37-45 | the result does not depend on the map's visiting order |
| PingTracker.UntrackedNeverReported | internal/monitoring/ping_tracker.go:18-41 | an address that never replied is not a key and is never reported |
| PingTracker.Reset | internal/monitoring/ping_tracker.go:57-65 | every flag false, no key dropped, both lists empty |
| ReplyTracker.OnRecv | internal/utils/pinger.go:40-50 | a positive round-trip time flags only that address; zero or negative changes nothing |
| ReplyTracker.OnIdle | internal/utils/pinger.go:52-69 | reports exactly the tracked addresses whose flag is false, once each; then all flags false, keys unchanged |
| ReplyTracker.TrackedOnlyAfterReply | internal/utils/pinger.go:36-50 | after any sequence of callbacks the tracked addresses are exactly those that replied with a positive round-trip time |
| ReplyTracker.NeverAnsweredNeverReported | internal/utils/pinger.go:36-64 | from the empty map, an address without a positive-rtt reply is never reported |
| Pinger.OnRecv | internal/monitoring/pinger.go:52-62 | rtt > 0 flags the address and leaves every other flag as it was; rtt <= 0 changes nothing |
| Pinger.OnIdle | internal/monitoring/pinger.go:64-85 | reports each silent tracked address once, calls the handler once per silent address iff one is set, then all flags false, keys unchanged |
| Icmp.TypeCodeDistinguishes | internal/network/icmp_ping.go:90-106 | the RFC 792 type code determines the kind of message |
| Icmp.Wire16 | internal/network/icmp_ping.go:57-59 | a 16-bit field carries the value modulo 65536 |
| Icmp.Wire16Small | internal/network/icmp_ping.go:57-59 | values below 65536 cross the wire unchanged |
| Icmp.OnWire | internal/network/icmp_ping.go:55-64 | the sent Echo keeps its data; identifier and sequence number lie in [0, 65536) and agree with the originals modulo 65536 |
| Icmp.ReplyTo | internal/network/icmp_ping.go:91-93 | a conforming peer's Echo Reply carries the request's wire identifier, sequence number and data |
| IcmpPing.CheckOpts | internal/network/icmp_ping.go:114-126 | fails iff the address string is empty; TTL 0 becomes 64 and deadline 0 becomes 3 s, other values kept |
| IcmpPing.CheckOptsIdempotent | internal/network/icmp_ping.go:114-126 | checked options have non-zero TTL and deadline, and checking them again changes nothing |
| IcmpPing.EchoRequest | internal/network/icmp_ping.go:55-62 | the request carries identifier = pid, the options' sequence number and an 8-byte payload |
| IcmpPing.EchoRequestCarriesSendTime | internal/network/icmp_ping.go:60 | the payload decodes to the send instant |
| IcmpPing.ClassifyErrors | internal/network/icmp_ping.go:90-106 | Time Exceeded gives `ErrTimeExceeded`; every non-Echo-Reply ends the probe with an error; an Echo Reply never does |
| IcmpPing.OwnReplyRejectedForLargePid | internal/network/icmp_ping.go:93 | as written, with pid 70000 the probe's own reply is not recognised |
| IcmpPing.OwnReplyAccepted | internal/network/icmp_ping.go:91-99 | comparing wire values, the probe's own reply always succeeds |
| IcmpPing.ClassifyAgreesOnSmallValues | internal/network/icmp_ping.go:90-106 | both comparisons agree when pid and sequence number fit in 16 bits |
| IcmpPing.Classify | internal/network/icmp_ping.go:90-106 | the `switch` as written; stated by ClassifyErrors, OwnReplyRejectedForLargePid and ClassifyAgreesOnSmallValues |
| IcmpPing.ClassifyWire | internal/network/icmp_ping.go:90-106 | the `switch` comparing wire values; stated by ClassifyErrors, OwnReplyAccepted and ClassifyAgreesOnSmallValues |
| IcmpPing.ReadLoop | internal/network/icmp_ping.go:79-107 | the read loop as written; stated by ReadLoopSpinsPastDeadline, SkippedReads and ReadLoopsAgreeBeforeDeadline |
| IcmpPing.ReadLoopWithDeadline | internal/network/icmp_ping.go:73-107 | the read loop ending the probe at the deadline; stated by ReadLoopWithDeadlineReturns, SkippedReadsWithDeadline and ReadLoopsAgreeBeforeDeadline |
| IcmpPing.ReadLoopSpinsPastDeadline | internal/network/icmp_ping.go:79-83 | as written, reads that fail after the deadline never end a probe that is still reading |
| IcmpPing.TimeoutsSkipped | internal/network/icmp_ping.go:79-83 | any number of deadline failures alone leaves the probe reading |
| IcmpPing.ReadLoopWithDeadlineReturns | internal/network/icmp_ping.go:73-83 | honouring the deadline, the first read past it settles the probe |
| IcmpPing.ReadLoopsAgreeBeforeDeadline | internal/network/icmp_ping.go:79-107 | before the deadline both loops settle the probe identically |
| IcmpPing.Ping | internal/network/icmp_ping.go:44-108 | as written: an empty address fails with the options error; a failed send fails with a socket error |
| IcmpPing.PingWithDeadline | internal/network/icmp_ping.go:44-108 | with the corrected loop: the same two failures |
| IcmpPing.PingAnswered | internal/network/icmp_ping.go:79-99 | as written, for a 16-bit pid and sequence number: after any skipped reads (failed reads, including past the deadline, parse errors, Echo Replies not ours) the target's reply ends the probe successfully with that reply |
| IcmpPing.PingSpinsPastDeadline | internal/network/icmp_ping.go:79-83 | as written, a probe still reading at the deadline keeps reading through every later timeout |
| IcmpPing.SkippedReads | internal/network/icmp_ping.go:79-99 | the loop as written passes over failed reads, parse errors and Echo Replies not ours without effect |
| IcmpPing.PingWithDeadlineAnswered | internal/network/icmp_ping.go:79-99 | with the corrected loop, for any pid and sequence number, the target's reply after reads skipped before the deadline ends the probe successfully |
| IcmpPing.PingWithDeadlineReturns | internal/network/icmp_ping.go:73-83 | with the corrected loop, a sent probe is settled by the first read past the deadline at the latest |
| IcmpPing.SkippedReadsWithDeadline | internal/network/icmp_ping.go:79-99 | the corrected loop passes over failures before the deadline, parse errors and Echo Replies not ours without effect |
| PingLoop.AddIpAddr | internal/network/ping_loop.go:51-55 | a handle already present changes nothing; a new one is appended at the end |
| PingLoop.AddIpAddrDistinct | internal/network/ping_loop.go:51-55 | the list never holds a handle twice and keeps its earlier order |
| PingLoop.RunCheck | internal/network/ping_loop.go:57-66 | passes iff there are targets and both callbacks are set; otherwise the first failing check's error, in source order |
| PingLoop.IntervalNanos | internal/network/ping_loop.go:42 | without 64-bit overflow the interval is the given seconds in nanoseconds |
| PingLoop.NewPingLoop | internal/network/ping_loop.go:34-49 | no targets yet; the identifier lies in [0, 0xffff) and so survives the 16-bit field |
| PingLoop.Probes | internal/network/ping_loop.go:87-93 | from counter s the i-th target gets sequence number s + i + 1, in list order |
| PingLoop.SendInterval | internal/network/ping_loop.go:87-101 | the counter advances by the number of targets even when sends fail; exactly the successful sends go out, in increasing sequence order |
| PingLoop.IntervalWindow | internal/network/ping_loop.go:85 | every probe of the interval lies in its window (s, s + n] |
| PingLoop.IntervalWindowExact | internal/network/ping_loop.go:85-93 | a sequence number lies in the window iff some probe of the interval carries it |
| PingLoop.CounterAtClosed | internal/network/ping_loop.go:75-88 | the counter starts at 0 and interval k starts at k * n |
| PingLoop.WindowsDisjoint | internal/network/ping_loop.go:85-88 | the windows of two different intervals share no sequence number |
| PingLoop.Accept | internal/network/ping_loop.go:117-119 | the filter as written; stated by AcceptBlindAfterWrap, AcceptRejectsOwnReplyAt65536, AcceptAgreesBeforeWrap and ListenSilentAfterWrap |
| PingLoop.AcceptWire | internal/network/ping_loop.go:117-119 | the filter comparing wire values; stated by AcceptWireExactly, AcceptWireOnlyWindow and AcceptAgreesBeforeWrap |
| PingLoop.AcceptBlindAfterWrap | internal/network/ping_loop.go:119 | as written, once the window starts at 65535 or later no reply read off the wire is accepted |
| PingLoop.AcceptRejectsOwnReplyAt65536 | internal/network/ping_loop.go:119 | as written, the reply to probe 65536 is rejected |
| PingLoop.AcceptWireExactly | internal/network/ping_loop.go:115-119 | comparing wire values, the reply to every probe of the window is accepted |
| PingLoop.AcceptWireOnlyWindow | internal/network/ping_loop.go:115-119 | comparing wire values, only sequence numbers of some probe of the window are accepted |
| PingLoop.AcceptAgreesBeforeWrap | internal/network/ping_loop.go:117-119 | before the counter wraps both filters agree on every message |
| PingLoop.SaturatingSub | internal/network/ping_loop.go:149 | the difference of two instants, saturated at the int64 range |
| PingLoop.GetDuration | internal/network/ping_loop.go:142-151 | fewer than 8 bytes gives an error and 0; otherwise no error and the time since the instant in the first 8 bytes |
| PingLoop.GetDurationOfProbe | internal/network/ping_loop.go:142-151 | a reply carrying its probe's timestamp yields the elapsed time, whatever follows |
| PingLoop.Respond | internal/network/ping_loop.go:120-132 | the forwarded response: the reply's body and peer with its duration, 0 when that failed; stated by ShortPayloadForwarded and GetDurationOfProbe |
| PingLoop.Listen | internal/network/ping_loop.go:115-139 | forwards the accepted replies in arrival order, under the source's filter or the wire-value one; stated by the lemmas below |
| PingLoop.ListenForwardsExactly | internal/network/ping_loop.go:115-139 | under either filter, a response is forwarded iff an arrival passing the filter produced it |
| PingLoop.ShortPayloadForwarded | internal/network/ping_loop.go:120-132 | under either filter, an accepted reply with a short payload is still forwarded, with duration 0 |
| PingLoop.ListenSilentAfterWrap | internal/network/ping_loop.go:115-139 | as written, once the window starts at 65535 or later nothing is forwarded |
| PingLoop.ListenAgreesBeforeWrap | internal/network/ping_loop.go:115-139 | before the counter wraps both filters forward exactly the same responses |
| Traceroute.ReadHops | internal/network/traceroute.go:43-64 | the read loop of one TTL; stated by RouterStepAdvances, WalkReachesTarget, SilentTtlAddsNothing and ReadHopsSkipsOthers |
| Traceroute.Walk | internal/network/traceroute.go:21-65 | the TTL walk; stated by the Walk lemmas below |
| Traceroute.Trace | internal/network/traceroute.go:17-68 | the walk from TTL 1 with no hops; stated by the Trace lemmas below |
| Traceroute.WalkProbes | internal/network/traceroute.go:21-37 | probe k of the walk uses TTL and sequence number ttl + k, and the walk stops by TTL 30 |
| Traceroute.TraceProbes | internal/network/traceroute.go:21-37 | probe i of a trace has TTL i and sequence number i, at most 30 probes |
| Traceroute.WalkFailureDiscardsHops | internal/network/traceroute.go:22-41 | a walk fails only when a socket or a send failed at some TTL from the current one on; a failure carries no hops |
| Traceroute.WalkFailsAtBrokenStep | internal/network/traceroute.go:22-41 | conversely, a walk that reaches a TTL whose socket or send fails fails there with that TTL's error, whatever hops it had |
| Traceroute.TraceFailsAtBrokenStep | internal/network/traceroute.go:17-41 | a trace that reaches a TTL whose socket or send fails returns that error and no hops |
| Traceroute.WalkAppends | internal/network/traceroute.go:18-62 | hops are kept in order: earlier hops first, each TTL's in arrival order |
| Traceroute.RouterStepAdvances | internal/network/traceroute.go:58-62 | Time Exceeded appends one hop with the router's address and no names, and moves to the next TTL |
| Traceroute.WalkReachesTarget | internal/network/traceroute.go:44-62 | routers at the earlier TTLs and the target's matching reply give the router hops, then the target's hop with its names, and the walk ends there |
| Traceroute.TraceReachesTarget | internal/network/traceroute.go:17-68 | a target reached at TTL h behind h - 1 routers gives exactly h hops, the target's last |
| Traceroute.WalkThroughRouters | internal/network/traceroute.go:21-65 | when only routers answer, every remaining TTL is probed and adds its router's hop |
| Traceroute.TraceUnreachable | internal/network/traceroute.go:17-68 | an unreachable target behind answering routers gives 30 hops after 30 probes |
| Traceroute.SilentTtlAddsNothing | internal/network/traceroute.go:43-64 | a TTL that draws no message, or only messages other than Echo Reply and Time Exceeded, adds no hop: the walk sends that TTL's probe and goes on to the next TTL with the same hops |
| Traceroute.ReadHopsSkipsOthers | internal/network/traceroute.go:44-64 | messages other than Echo Reply and Time Exceeded add nothing |
| Manager.New | internal/monitoring/manager.go:22-39 | every target tracked with no reply and streak 0, no stored trace, countdown = frequency |
| Manager.RunTrace | internal/monitoring/manager.go:106-123 | 192.168 addresses are never traced; a result means the address resolved and its traceroute succeeded with those hops |
| Manager.RunTraceSucceeds | internal/monitoring/manager.go:106-123 | outside the LAN, a resolved address whose traceroute succeeds gives its hops |
| Manager.DefaultTargetsOnLan | internal/monitoring/manager.go:107-109 | the first two built-in targets are never traced; the other three are not on the LAN |
| Manager.StoreTraces | internal/monitoring/manager.go:61-70 | each successful trace is stored under its address; every other entry is unchanged |
| Manager.OnIntervalStart | internal/monitoring/manager.go:57-75 | the loss tracker is untouched |
| Manager.IntervalStartRule | internal/monitoring/manager.go:57-75 | for every state: every target is traced iff the countdown was exactly 1; a countdown of 1 or below restarts at the frequency, any other goes down by one; successful traces replace the stored ones, other stored traces stay |
| Manager.IntervalStartKeepsCountdown | internal/monitoring/manager.go:57-75 | with frequency F >= 1 a countdown in [1, F] stays there, and targets are traced only when it was 1 |
| Manager.NoScheduleWithoutFrequency | internal/monitoring/manager.go:57-75 | with frequency <= 0 a manager started with it never traces and never changes |
| Manager.ScheduledEveryF | internal/monitoring/manager.go:32-75 | from `NewManager`, the j-th interval start traces every target iff j is a multiple of F |
| Manager.OnResponse | internal/monitoring/manager.go:77-83 | a positive duration marks the peer replied; zero or negative changes nothing |
| Manager.ResponseClearsLoss | internal/monitoring/manager.go:77-83 | a peer answered with a positive duration is no longer unreplied |
| Manager.Compare | internal/monitoring/manager.go:132 | `time.Time.Compare` is -1, 0 or +1 exactly as the instants order |
| Manager.ShouldCountWindow | internal/monitoring/manager.go:125-137 | counting stops exactly when the UTC time of day is after 03:00:00 and at or before 03:05:00 |
| Manager.ShouldCountOnCalendar | internal/monitoring/manager.go:125-137 | the same on a calendar instant: stopped for 03:00:00 < time of day <= 03:05:00 UTC, on any date |
| Manager.AsWrittenAgreesInUtc | internal/monitoring/manager.go:127-132 | on a host in UTC the code as written counts exactly as intended |
| Manager.AsWrittenNeverPausesFarWest | internal/monitoring/manager.go:127-132 | as written, a host more than 3 h 05 min west of UTC never pauses |
| Manager.DowntimeMissedAtUtcMinus5 | internal/monitoring/manager.go:127-132 | 2025-12-25 03:02 UTC is inside the window, yet a UTC-5 host counts |
| Manager.ShouldCountAsWritten | internal/monitoring/manager.go:125-137 | the test as written, reading the date in the host's zone; stated by AsWrittenAgreesInUtc, AsWrittenNeverPausesFarWest and DowntimeMissedAtUtcMinus5 |
| Manager.ShouldCount | internal/monitoring/manager.go:125-137 | the test reading the date in UTC; stated by ShouldCountWindow and ShouldCountOnCalendar |
| Manager.Escalate | internal/monitoring/manager.go:90-99 | the escalation loop; stated by EscalateContract |
| Manager.EscalateContract | internal/monitoring/manager.go:90-99 | a streak is zeroed iff one of its losses reached the threshold and its trace succeeded; traces are attempted exactly for losses at the threshold; flags untouched |
| Manager.CountedEnd | internal/monitoring/manager.go:86-99 | one tracker round, then escalation; stated by IntervalEndClearsFlags, IntervalEndReplied and IntervalEndLost |
| Manager.CountInterval | internal/monitoring/manager.go:86-99 | one tracker round, then a trace for each loss whose streak reached the threshold, in the order the losses are reported, resetting the streak when the trace succeeds |
| Manager.OnIntervalEnd | internal/monitoring/manager.go:85-103 | as written, on a host at a given UTC offset: outside the local-date window the state is unchanged and nothing is reported or traced; otherwise exactly one counting round |
| Manager.OnIntervalEndUtc | internal/monitoring/manager.go:85-103 | the corrected behaviour: the same, with the pause read on the UTC date |
| Manager.IntervalEndClearsFlags | internal/monitoring/manager.go:85-103 | a counting interval end clears every flag and leaves stored traces and countdown alone |
| Manager.IntervalEndReplied | internal/monitoring/manager.go:86-99 | an address that replied is not reported or traced, and its streak is 0 |
| Manager.IntervalEndLost | internal/monitoring/manager.go:86-99 | a silent address is reported with its streak + 1, and no address is reported twice; the streak is zeroed only if it reached the threshold and its trace succeeded |

## Left out

- Sockets and wire handling are not modelled: `icmp.ListenPacket`, `WriteTo`/`ReadFrom`,
  `SetTTL`, `SetReadDeadline`, and the byte layout of `Marshal`/`ParseMessage`. Of
  `Marshal` only the 16-bit truncation of identifier and sequence number is modelled
  (`Icmp.OnWire`). A received message is an abstract record, and a failed socket or
  send is a boolean input.
- Goroutines, channels, `WaitGroup` and mutexes are not modelled. Each callback is one
  atomic step, and each interval is one pure step.
- Prometheus metrics and `slog` logging are side effects only and are dropped. This
  includes the `traceTracker.Get` that only feeds a log line (manager.go:95), the
  `ospid`/`seq` arguments of the interval-end callback, and the "No more timeouts" log
  of `PingTracker.getTimeouts`.
- `os.Exit` on an unparsable list is modelled as a `Failure` result.
- The `flag` package's own parsing is replaced by an input of optional values.
- Resolving the targets when the manager is built (`addIps`, with `os.Exit` on failure)
  is not modelled.
- An error from `NewPingLoop`/`NewICMPPing` is not modelled.
- These files are not part of this model: internal/config/config.go,
  internal/config/prom.go, internal/network/fastping.go and the `cmd/*` programs.
- `time.Now`, `rand.Intn`, `os.Getpid` and `net.LookupAddr` are parameters. Lookup
  errors are ignored, as in the source.
- Strings.TrimSpace: removes only the six ASCII white-space characters, not Unicode
  white space, because the model has no Unicode tables.
- The files come from different revisions and do not type-check together. Each is
  modelled as written:
  - ping_loop.go calls `Read`, `Ping` and an `ID` option that icmp_ping.go lacks.
  - traceroute.go sets an `id` option that does not exist, and its own `id` only
    decides whether the trace ends.
  - manager.go calls `countTimeouts`; the tracker's `getTimeouts` is what is modelled.
  - `OnIntervalEnd` takes no arguments in ping_loop.go but two in manager.go.
  - manager.go sets `OnIntervalStart`, which ping_loop.go's `PingLoop` lacks and its
    `startLoop` never calls. `Manager.OnIntervalStart`, and with it `Manager.Starts`
    and `Manager.ScheduledEveryF`, assume one call at the start of each interval.
  - `Opts` has no `TraceFrequency`/`TraceTimeoutThreshold`; these are
    `Manager.Settings`.
  - `TimeToBinary` takes a pointer but is called with values.
- TimeoutTracker streak counts are unbounded integers. Go's `int` overflow after 2^63
  silent rounds is not modelled.
- PingTracker: the `timeouts` field is never filled by the source. It is kept only so
  that `reset` can be stated.
- Manager.ShouldCount: this is the corrected definition, which reads the date in UTC
  (finding 4). The behaviour as written is `Manager.ShouldCountAsWritten`, which takes
  the host's UTC offset as a parameter and gates `Manager.OnIntervalEnd`; the
  corrected gate is `Manager.OnIntervalEndUtc`. Daylight-saving changes of that offset
  are not modelled.
- IcmpPing.Ping: its contract covers only the option and send failures. Once the
  request is sent, the outcome is stated by PingAnswered, PingSpinsPastDeadline and
  SkippedReads (and, for `PingWithDeadline`, by PingWithDeadlineAnswered and
  PingWithDeadlineReturns).

## Findings

| source | as written | input that shows it | evidently intended | confidence | as-written member | corrected member |
|---|---|---|---|---|---|---|
| internal/network/ping_loop.go:119 | the reply's 16-bit sequence number is compared with the unbounded counter window `min < Seq <= max` | after 65535 probes the window is (65535, 65536] and probe 65536 goes out as sequence 0, so its reply is dropped; from then on every reply is dropped | accept a reply whose wire sequence number is the low 16 bits of some probe of the window | not executed | PingLoop.Accept (AcceptBlindAfterWrap, AcceptRejectsOwnReplyAt65536, ListenSilentAfterWrap) | PingLoop.AcceptWire (AcceptWireExactly, AcceptWireOnlyWindow, ListenAgreesBeforeWrap; used by PingLoop.Listen with filter `WireValues`) |
| internal/network/icmp_ping.go:93 | the reply's 16-bit identifier is compared with `os.Getpid()` | pid 70000 goes out as identifier 4464, so the probe's own reply never matches | compare with the pid as the 16-bit field carries it | not executed | IcmpPing.Classify (OwnReplyRejectedForLargePid) | IcmpPing.ClassifyWire (OwnReplyAccepted; used by IcmpPing.ReadLoopWithDeadline) |
| internal/network/icmp_ping.go:79-83 | a failed read is skipped with `continue`, including the timeout after the read deadline | a target that never answers: every read after the deadline fails, and `Ping` never returns | end the probe when the deadline has passed | not executed | IcmpPing.ReadLoop (ReadLoopSpinsPastDeadline, PingSpinsPastDeadline) | IcmpPing.ReadLoopWithDeadline (ReadLoopWithDeadlineReturns, ReadLoopsAgreeBeforeDeadline; used by IcmpPing.PingWithDeadline, PingWithDeadlineReturns) |
| internal/monitoring/manager.go:127-130 | the window's date is the host's local calendar date, but its times are UTC | 2025-12-25 03:02 UTC on a host at UTC-5: the local date is 12-24, so the window checked is 12-24 03:00–03:05 UTC and the timeout counts | pause 03:00–03:05 UTC every day, whatever the host's zone | not executed | Manager.ShouldCountAsWritten (AsWrittenNeverPausesFarWest, DowntimeMissedAtUtcMinus5; used by Manager.OnIntervalEnd) | Manager.ShouldCount (ShouldCountWindow, ShouldCountOnCalendar; used by Manager.OnIntervalEndUtc) |

=== FILE: clock.dfy ===
/** Wall-clock helpers: the Unix-nanosecond reading of a UTC calendar instant, the
    way Go's `time.Date(..., time.UTC)` places it, and the length of a day. */
module Clock {
  import opened Timestamp

  const SECOND: int := 1_000_000_000
  const MINUTE: int := 60 * SECOND
  const HOUR: int := 60 * MINUTE
  const DAY: int := 24 * HOUR

  /** Days since 1970-01-01 of a proleptic Gregorian date (month and day in range). */
  function DaysFromCivil(year: int, month: int, day: int): int
    requires 1 <= month <= 12 && 1 <= day <= 31
  {
    var y := if month <= 2 then year - 1 else year;
    var era := y / 400;
    var yoe := y - era * 400;
    var mp := if month > 2 then month - 3 else month + 9;
    var doy := (153 * mp + 2) / 5 + day - 1;
    var doe := yoe * 365 + yoe / 4 - yoe / 100 + doy;
    era * 146097 + doe - 719468
  }

  /** `time.Date(year, month, day, hour, min, sec, nsec, time.UTC).UnixNano()`. */
  function UtcNanos(year: int, month: int, day: int, hour: nat, min: nat, sec: nat, nsec: nat): int
    requires 1 <= month <= 12 && 1 <= day <= 31
  {
    DaysFromCivil(year, month, day) * DAY + hour * HOUR + min * MINUTE + sec * SECOND + nsec
  }

  /** The epoch itself is day zero. */
  lemma EpochIsDayZero()
    ensures UtcNanos(1970, 1, 1, 0, 0, 0, 0) == 0
  {
  }

  /** The fixture instant of the codec tests, 2025-12-25T13:00:00Z, in Unix
      nanoseconds. */
  lemma ChristmasLunchInstant()
    ensures UtcNanos(2025, 12, 25, 13, 0, 0, 0) == 1766667600000000000
  {
  }

  /** The fixture instant encodes to [24,132,118,210,110,49,32,0]. */
  lemma ChristmasLunchBytes()
    ensures TimeToBinary(1766667600000000000) == [24, 132, 118, 210, 110, 49, 32, 0]
  {
    var b: seq<byte> := [24, 132, 118, 210, 110, 49, 32, 0];
    assert DecodeBE(b[..1]) == 24;
    assert b[..2][..1] == b[..1];
    assert DecodeBE(b[..2]) == 6276;
    assert b[..3][..2] == b[..2];
    assert DecodeBE(b[..3]) == 1606774;
    assert b[..4][..3] == b[..3];
    assert DecodeBE(b[..4]) == 411334354;
    assert b[..5][..4] == b[..4];
    assert DecodeBE(b[..5]) == 105301594734;
    assert b[..6][..5] == b[..5];
    assert DecodeBE(b[..6]) == 26957208251953;
    assert b[..7][..6] == b[..6];
    assert DecodeBE(b[..7]) == 6901045312500000;
    assert b[..8][..7] == b[..7];
    assert DecodeBE(b[..8]) == 1766667600000000000;
    assert b[..8] == b;
    EncodeDecode(b);
  }

  /** The fixture bytes decode back to the fixture instant. */
  lemma ChristmasLunchDecodes()
    ensures BinaryToTime([24, 132, 118, 210, 110, 49, 32, 0]) == 1766667600000000000
  {
    ChristmasLunchBytes();
    TimeRoundTrip(1766667600000000000);
  }
}

=== FILE: config.dfy ===
/** Start-up options of internal/config/opts.go: the target-list parser, the built-in
    defaults, and how the command-line values override them. The command line itself
    is an input: each flag is `None` when it was not given. */
module Config {
  import opened Strings
  import opened Wrappers
  import Ips

  /** The built-in target list, "192.168.68.1, 192.168.1.1, 1.1.1.1, 8.8.8.8, 79.79.79.79". */
  const DefaultIps: string :=
    "192.168.68.1" + ", " + "192.168.1.1" + ", " + "1.1.1.1" + ", " + "8.8.8.8" + ", " + "79.79.79.79"

  /** The `slog` levels the `-log-level` flag can select. */
  datatype Level = Debug | Info | Warn | Error

  /** `slog.Level.String()` for the four levels, which is also the flag's default text. */
  function LevelName(l: Level): string {
    match l
    case Debug => "DEBUG"
    case Info => "INFO"
    case Warn => "WARN"
    case Error => "ERROR"
  }

  datatype Opts = Opts(pingIps: seq<string>, pingInterval: nat, logLevel: Level, serverPort: string)

  /** The values found on the command line; `None` for a flag that was not given. */
  datatype Flags = Flags(
    pingIps: Option<string>,
    pingInterval: Option<nat>,
    logLevel: Option<string>,
    serverPort: Option<string>)

  const NoFlags: Flags := Flags(None, None, None, None)

  function GetOr<T>(o: Option<T>, default: T): T {
    match o
    case Some(v) => v
    case None => default
  }

  /** `GetIps` of opts.go: the same algorithm as the utils copy, as a value. */
  function GetIps(s: string): Result<seq<string>, string> {
    var targets := Ips.Targets(s);
    if targets == [] then Failure(Ips.NoIpsError) else Success(targets)
  }

  /** What `GetIps` promises: failure exactly when the text holds nothing but commas and
      white space; otherwise non-empty, trimmed, comma-free targets, at most one per
      comma-separated piece. */
  lemma GetIpsContract(s: string)
    ensures GetIps(s).Failure? <==> forall j :: 0 <= j < |s| ==> s[j] == ',' || IsSpace(s[j])
    ensures GetIps(s).Failure? ==> GetIps(s).error == Ips.NoIpsError
    ensures GetIps(s).Success? ==> |GetIps(s).value| <= Count(s, ',') + 1
    ensures GetIps(s).Success? ==> forall i :: 0 <= i < |GetIps(s).value| ==>
      var t := GetIps(s).value[i]; t != "" && Trimmed(t) && ',' !in t
  {
    Ips.NoTargetsIffBlank(s);
    Ips.TargetsWellFormed(s);
  }

  /** The `-log-level` switch: one of the four names selects its level, any other text
      leaves the current level in place. */
  function ApplyLogLevel(current: Level, name: string): (l: Level)
    ensures name in {"DEBUG", "INFO", "WARN", "ERROR"} ==> LevelName(l) == name
    ensures name !in {"DEBUG", "INFO", "WARN", "ERROR"} ==> l == current
  {
    match name
    case "DEBUG" => Debug
    case "INFO" => Info
    case "WARN" => Warn
    case "ERROR" => Error
    case _ => current
  }

  /** Naming a level and reading the name back selects that level, whatever was set. */
  lemma LevelNameRoundTrip(current: Level, l: Level)
    ensures ApplyLogLevel(current, LevelName(l)) == l
  {
  }

  /** `ParseFlags`: an absent `-ping-ips` falls back to the built-in list (not to the
      current one), the other flags fall back to the current values; an unparsable
      list stops the program, modelled as a failure. */
  function ParseFlags(o: Opts, f: Flags): (r: Result<Opts, string>)
    ensures r.Success? <==> GetIps(GetOr(f.pingIps, DefaultIps)).Success?
    ensures r.Success? ==> r.value.pingIps == GetIps(GetOr(f.pingIps, DefaultIps)).value
    ensures r.Success? && f.pingInterval.None? ==> r.value.pingInterval == o.pingInterval
    ensures r.Success? && f.serverPort.None? ==> r.value.serverPort == o.serverPort
    ensures r.Success? && f.logLevel.None? ==> r.value.logLevel == o.logLevel
    ensures r.Success? && f.pingInterval.Some? ==> r.value.pingInterval == f.pingInterval.value
    ensures r.Success? && f.serverPort.Some? ==> r.value.serverPort == f.serverPort.value
    ensures r.Success? && f.logLevel.Some? && f.logLevel.value in {"DEBUG", "INFO", "WARN", "ERROR"} ==>
      LevelName(r.value.logLevel) == f.logLevel.value
    ensures r.Success? && f.logLevel.Some? && f.logLevel.value !in {"DEBUG", "INFO", "WARN", "ERROR"} ==>
      r.value.logLevel == o.logLevel
  {
    var parsed := GetIps(GetOr(f.pingIps, DefaultIps));
    if parsed.Failure? then Failure(parsed.error)
    else
      Success(Opts(
        parsed.value,
        GetOr(f.pingInterval, o.pingInterval),
        ApplyLogLevel(o.logLevel, GetOr(f.logLevel, LevelName(o.logLevel))),
        GetOr(f.serverPort, o.serverPort)))
  }

  /** `NewOpts`: parse the built-in list, start from interval 15 s, port "8080" and
      level INFO, then apply the command line. */
  function NewOpts(f: Flags): Result<Opts, string> {
    match GetIps(DefaultIps)
    case Failure(e) => Failure(e)
    case Success(ips) => ParseFlags(Opts(ips, 15, Info, "8080"), f)
  }

  /** An entry preceded by one space trims back to the entry. */
  lemma PaddedEntry(t: string)
    requires t != "" && Trimmed(t)
    ensures TrimSpace(" " + t) == t
  {
    assert " " + t == " " + t + "";
    TrimSpacePadded(" ", t, "");
  }

  /** Writing five entries with ", " between them is joining them, the last four
      with a leading space, by commas. */
  lemma JoinFive(a: string, b: string, c: string, d: string, e: string)
    ensures Join([a, " " + b, " " + c, " " + d, " " + e], ',') == a + ", " + b + ", " + c + ", " + d + ", " + e
  {
    var p := [a, " " + b, " " + c, " " + d, " " + e];
    assert p[1..][1..][1..][1..] == [" " + e];
    assert p[1..][1..][1..] == [" " + d, " " + e];
    assert p[1..][1..] == [" " + c, " " + d, " " + e];
    assert p[1..] == [" " + b, " " + c, " " + d, " " + e];
    var j4 := Join([" " + e], ',');
    var j3 := Join([" " + d, " " + e], ',');
    var j2 := Join([" " + c, " " + d, " " + e], ',');
    var j1 := Join([" " + b, " " + c, " " + d, " " + e], ',');
    assert j3 == " " + d + [','] + j4;
    assert j2 == " " + c + [','] + j3;
    assert j1 == " " + b + [','] + j2;
    assert Join(p, ',') == a + [','] + j1;
    assert [','] + " " == ", ";
  }

  /** A list written "a, b, c, d, e" parses to its five entries, in order, when each is
      non-empty, has no white space at its ends and no comma. */
  lemma GetIpsFive(a: string, b: string, c: string, d: string, e: string)
    requires a != "" && Trimmed(a) && ',' !in a
    requires b != "" && Trimmed(b) && ',' !in b
    requires c != "" && Trimmed(c) && ',' !in c
    requires d != "" && Trimmed(d) && ',' !in d
    requires e != "" && Trimmed(e) && ',' !in e
    ensures GetIps(a + ", " + b + ", " + c + ", " + d + ", " + e) == Success([a, b, c, d, e])
  {
    JoinFive(a, b, c, d, e);
    var pieces := [a, " " + b, " " + c, " " + d, " " + e];
    var ips := [a, b, c, d, e];
    TrimSpaceFixesTrimmed(a);
    PaddedEntry(b);
    PaddedEntry(c);
    PaddedEntry(d);
    PaddedEntry(e);
    Ips.TargetsOfJoin(pieces, ips);
    Ips.KeepNonBlankAll(ips);
  }

  /** The built-in list parses to its five addresses, in order. */
  lemma DefaultIpsParse()
    ensures GetIps(DefaultIps) == Success(["192.168.68.1", "192.168.1.1", "1.1.1.1", "8.8.8.8", "79.79.79.79"])
  {
    GetIpsFive("192.168.68.1", "192.168.1.1", "1.1.1.1", "8.8.8.8", "79.79.79.79");
  }

  /** With no flags given, the options are exactly the built-in defaults. */
  lemma NewOptsDefaults()
    ensures NewOpts(NoFlags) == Success(Opts(
      ["192.168.68.1", "192.168.1.1", "1.1.1.1", "8.8.8.8", "79.79.79.79"], 15, Info, "8080"))
  {
    DefaultIpsParse();
  }

  /** "8.8.8.8" parses to itself. */
  lemma GetIpsOne()
    ensures GetIps("8.8.8.8") == Success(["8.8.8.8"])
  {
    var a := "8.8.8.8";
    TrimSpaceFixesTrimmed(a);
    Ips.TargetsOfJoin([a], [a]);
    assert Join([a], ',') == a;
    assert Ips.KeepNonBlank([a]) == [a] by {
      Ips.KeepNonBlankSnoc([], a);
    }
  }

  /** "8.8.8.8,9.12.9.4" parses to both addresses, in order. */
  lemma GetIpsTwo()
    ensures GetIps("8.8.8.8,9.12.9.4") == Success(["8.8.8.8", "9.12.9.4"])
  {
    var a, b := "8.8.8.8", "9.12.9.4";
    TrimSpaceFixesTrimmed(a);
    TrimSpaceFixesTrimmed(b);
    Ips.TargetsOfJoin([a, b], [a, b]);
    assert Join([a, b], ',') == a + "," + b;
    assert a + "," + b == "8.8.8.8,9.12.9.4";
    assert Ips.KeepNonBlank([a, b]) == [a, b] by {
      Ips.KeepNonBlankSnoc([], a);
      Ips.KeepNonBlankSnoc([a], b);
      assert [a] + [b] == [a, b];
    }
  }

  /** " 8.8.8.8 , ": padding and a trailing comma add no target. */
  lemma GetIpsTrims()
    ensures GetIps(" 8.8.8.8 , ") == Success(["8.8.8.8"])
  {
    var a := "8.8.8.8";
    var pieces := [" " + a + " ", " "];
    TrimSpacePadded(" ", a, " ");
    assert TrimSpace(" ") == "";
    Ips.TargetsOfJoin(pieces, [a, ""]);
    assert " " + a + " , " == Join(pieces, ',');
    assert " " + a + " , " == " 8.8.8.8 , ";
    assert Ips.KeepNonBlank([a, ""]) == [a] by {
      Ips.KeepNonBlankSnoc([], a);
      Ips.KeepNonBlankSnoc([a], "");
      assert [a] + [""] == [a, ""];
    }
  }

  /** "8.8.8.8, 9.9.9.9 ,": inner padding is trimmed and the order is kept. */
  lemma GetIpsPaddedPair()
    ensures GetIps("8.8.8.8, 9.9.9.9 ,") == Success(["8.8.8.8", "9.9.9.9"])
  {
    var a, b := "8.8.8.8", "9.9.9.9";
    var pieces := [a, " " + b + " ", ""];
    TrimSpaceFixesTrimmed(a);
    TrimSpacePadded(" ", b, " ");
    Ips.TargetsOfJoin(pieces, [a, b, ""]);
    assert pieces[1..][1..] == [""];
    assert Join(pieces[1..], ',') == (" " + b + " ") + [','] + "";
    assert Join(pieces, ',') == a + [','] + ((" " + b + " ") + [','] + "");
    assert a + ", " + b + " ," == Join(pieces, ',');
    assert a + ", " + b + " ," == "8.8.8.8, 9.9.9.9 ,";
    assert Ips.KeepNonBlank([a, b, ""]) == [a, b] by {
      Ips.KeepNonBlankSnoc([], a);
      Ips.KeepNonBlankSnoc([a], b);
      Ips.KeepNonBlankSnoc([a, b], "");
      assert [a] + [b] == [a, b];
      assert [a, b] + [""] == [a, b, ""];
    }
  }

  /** Blank input is refused. */
  lemma GetIpsBlank()
    ensures GetIps("").Failure? && GetIps(" , ").Failure?
  {
  }
}

=== FILE: flags.dfy ===
/** The per-address reply flags that every tracker of the monitor keeps: a map from an
    address to "a reply arrived this round". Go visits a map in an unspecified order, so
    every walk over a map is given that order explicitly, as a sequence that lists each
    key once. */
module Flags {

  type Replies = map<string, bool>

  predicate Distinct<T(==)>(s: seq<T>) {
    forall i, j :: 0 <= i < j < |s| ==> s[i] != s[j]
  }

  /** `order` is one way Go's `range` may visit the keys `keys`: each exactly once. */
  predicate Enumerates(order: seq<string>, keys: set<string>) {
    Distinct(order) && (forall k :: k in order ==> k in keys) && (forall k :: k in keys ==> k in order)
  }

  /** The addresses that have not replied this round. */
  function Unreplied(m: Replies): set<string> {
    set ip | ip in m && !m[ip]
  }

  /** The keys of `order` whose flag is false, in the order visited. */
  function CollectUnreplied(m: Replies, order: seq<string>): seq<string> {
    if |order| == 0 then []
    else
      (if order[0] in m && !m[order[0]] then [order[0]] else [])
      + CollectUnreplied(m, order[1..])
  }

  /** The collected addresses are the visited keys whose flag is false, and none is
      collected twice when none is visited twice. */
  lemma {:induction false} CollectUnrepliedMembers(m: Replies, order: seq<string>)
    ensures forall ip :: ip in CollectUnreplied(m, order) <==> ip in order && ip in m && !m[ip]
    ensures Distinct(order) ==> Distinct(CollectUnreplied(m, order))
    ensures |CollectUnreplied(m, order)| <= |order|
  {
    if |order| > 0 {
      CollectUnrepliedMembers(m, order[1..]);
      if Distinct(order) {
        assert Distinct(order[1..]) by {
          forall i, j | 0 <= i < j < |order[1..]| ensures order[1..][i] != order[1..][j] {
            assert order[1..][i] == order[i + 1] && order[1..][j] == order[j + 1];
          }
        }
        assert order[0] !in order[1..];
      }
    }
  }

  /** Visiting one more key extends the collection by that key when it is unreplied. */
  lemma {:induction false} CollectUnrepliedSnoc(m: Replies, order: seq<string>, ip: string)
    ensures CollectUnreplied(m, order + [ip])
      == CollectUnreplied(m, order) + (if ip in m && !m[ip] then [ip] else [])
  {
    if |order| == 0 {
      assert order + [ip] == [ip];
    } else {
      assert (order + [ip])[1..] == order[1..] + [ip];
      CollectUnrepliedSnoc(m, order[1..], ip);
    }
  }

  /** Walking every key once reports each unreplied address exactly once. */
  lemma CollectUnrepliedExactly(m: Replies, order: seq<string>)
    requires Enumerates(order, m.Keys)
    ensures Distinct(CollectUnreplied(m, order))
    ensures forall ip :: ip in CollectUnreplied(m, order) <==> ip in Unreplied(m)
  {
    CollectUnrepliedMembers(m, order);
  }

  /** The end-of-round reset: every tracked flag false, no address added or removed. */
  function ClearAll(m: Replies): (r: Replies)
    ensures r.Keys == m.Keys
    ensures forall ip :: ip in r ==> !r[ip]
  {
    map ip | ip in m :: false
  }

  /** After the reset every tracked address counts as unreplied. */
  lemma ClearAllUnreplied(m: Replies)
    ensures Unreplied(ClearAll(m)) == m.Keys
  {
  }

  /** A list without repetitions has as many elements as the set it lists. */
  lemma {:induction false} DistinctCardinality(s: seq<string>, elems: set<string>)
    requires Distinct(s) && forall x :: x in s <==> x in elems
    ensures |s| == |elems|
    decreases |s|
  {
    if |s| == 0 {
      assert elems == {};
    } else {
      assert Distinct(s[1..]) by {
        forall i, j | 0 <= i < j < |s[1..]| ensures s[1..][i] != s[1..][j] {
          assert s[1..][i] == s[i + 1] && s[1..][j] == s[j + 1];
        }
      }
      assert s[0] !in s[1..];
      assert forall x :: x in s[1..] <==> x in elems - {s[0]} by {
        forall x ensures x in s[1..] <==> x in elems - {s[0]} {
          if x in s && x != s[0] {
            var k :| 0 <= k < |s| && s[k] == x;
            assert s[1..][k - 1] == x;
          }
        }
      }
      DistinctCardinality(s[1..], elems - {s[0]});
    }
  }
}

=== FILE: icmp.dfy ===
/** The ICMP messages the monitor sends and receives (RFC 792), as records: what
    golang.org/x/net's `icmp.ParseMessage` hands back, with the sender's address. The
    Echo and Echo Reply identifier and sequence number are 16-bit fields on the wire;
    Go keeps them in `int`s and `Marshal` truncates them. */
module Icmp {
  import opened Timestamp

  /** RFC 792 type codes. */
  const ECHO_REPLY: int := 0
  const DESTINATION_UNREACHABLE: int := 3
  const ECHO: int := 8
  const TIME_EXCEEDED: int := 11

  /** Any type code the monitor does not handle by name. */
  type OtherType = k: int | 0 <= k < 256 && k != ECHO_REPLY && k != DESTINATION_UNREACHABLE && k != TIME_EXCEEDED
    witness ECHO

  /** The body of an Echo or Echo Reply. */
  datatype Echo = Echo(id: int, sequence: int, data: seq<byte>)

  /** A received message and its sender. */
  datatype Message =
    | EchoReply(body: Echo, peer: string)
    | TimeExceeded(peer: string)
    | DestinationUnreachable(peer: string)
    | Other(kind: OtherType, peer: string)

  function TypeCode(m: Message): int {
    match m
    case EchoReply(_, _) => ECHO_REPLY
    case TimeExceeded(_) => TIME_EXCEEDED
    case DestinationUnreachable(_) => DESTINATION_UNREACHABLE
    case Other(k, _) => k
  }

  /** The type code tells the kinds of message apart. */
  lemma TypeCodeDistinguishes(m: Message, n: Message)
    requires TypeCode(m) == TypeCode(n)
    ensures m.EchoReply? <==> n.EchoReply?
    ensures m.TimeExceeded? <==> n.TimeExceeded?
    ensures m.DestinationUnreachable? <==> n.DestinationUnreachable?
  {
  }

  /** The value a 16-bit field carries: Go's `uint16(v)` conversion. */
  function Wire16(v: int): (w: int)
    ensures 0 <= w < 0x1_0000
    ensures w % 0x1_0000 == v % 0x1_0000
  {
    v % 0x1_0000
  }

  lemma Wire16Small(v: int)
    requires 0 <= v < 0x1_0000
    ensures Wire16(v) == v
  {
  }

  /** The Echo body as it leaves the host: identifier and sequence number truncated. */
  function OnWire(e: Echo): (w: Echo)
    ensures w.data == e.data
    ensures 0 <= w.id < 0x1_0000 && 0 <= w.sequence < 0x1_0000
    ensures w.id % 0x1_0000 == e.id % 0x1_0000 && w.sequence % 0x1_0000 == e.sequence % 0x1_0000
  {
    Echo(Wire16(e.id), Wire16(e.sequence), e.data)
  }

  /** The Echo Reply a conforming peer returns for an Echo: RFC 792 requires the
      identifier, the sequence number and the data to come back unchanged. */
  function ReplyTo(request: Echo, peer: string): (m: Message)
    ensures m.EchoReply? && m.peer == peer && m.body.data == request.data
    ensures m.body.id == Wire16(request.id) && m.body.sequence == Wire16(request.sequence)
  {
    EchoReply(OnWire(request), peer)
  }
}

=== FILE: icmp_ping.dfy ===
/** One probe of internal/network/icmp_ping.go: option defaults (`checkOpts`), the Echo
    request `Ping` sends, and how `Ping` reads until a message settles the probe. The
    socket is replaced by its observable results: whether setting up and sending
    succeeded, and the sequence of reads that follows. */
module IcmpPing {
  import opened Wrappers
  import opened Timestamp
  import opened Icmp
  import Clock

  /** `ICMPPingOpts`, with the address in its string form. */
  datatype PingOpts = PingOpts(ip: string, readDeadline: int, ttl: int, sequence: int)

  const OPTS_ERROR: string := "opts.IP is required, no value set"
  const DEFAULT_TTL: int := 64
  const DEFAULT_READ_DEADLINE: int := 3 * Clock.SECOND

  /** `checkOpts`: refuse an address whose string form is empty; a zero TTL becomes 64
      and a zero read deadline becomes 3 s; everything else is kept. */
  function CheckOpts(o: PingOpts): (r: Result<PingOpts, string>)
    ensures r.Failure? <==> o.ip == ""
    ensures r.Failure? ==> r.error == OPTS_ERROR
    ensures r.Success? ==> r.value.ip == o.ip && r.value.sequence == o.sequence
    ensures r.Success? ==> r.value.ttl == (if o.ttl == 0 then DEFAULT_TTL else o.ttl)
    ensures r.Success? ==> r.value.readDeadline == (if o.readDeadline == 0 then DEFAULT_READ_DEADLINE else o.readDeadline)
  {
    if o.ip == "" then Failure(OPTS_ERROR)
    else
      Success(o.(ttl := if o.ttl == 0 then DEFAULT_TTL else o.ttl,
                 readDeadline := if o.readDeadline == 0 then DEFAULT_READ_DEADLINE else o.readDeadline))
  }

  /** Checked options never carry a zero TTL or a zero deadline, and checking them
      again changes nothing. */
  lemma CheckOptsIdempotent(o: PingOpts)
    requires CheckOpts(o).Success?
    ensures CheckOpts(o).value.ttl != 0 && CheckOpts(o).value.readDeadline != 0
    ensures CheckOpts(CheckOpts(o).value) == CheckOpts(o)
  {
  }

  /** The Echo request: identifier = process id, sequence number from the options, and
      the send time as the 8-byte payload. */
  function EchoRequest(pid: int, o: PingOpts, now: int64): (e: Echo)
    ensures e.id == pid && e.sequence == o.sequence && |e.data| == 8
  {
    Echo(pid, o.sequence, TimeToBinary(now))
  }

  /** The payload gives the send time back to whoever receives the echo. */
  lemma EchoRequestCarriesSendTime(pid: int, o: PingOpts, now: int64)
    ensures BinaryToTime(EchoRequest(pid, o, now).data) == now
  {
    TimeRoundTrip(now);
    assert EchoRequest(pid, o, now).data[..8] == EchoRequest(pid, o, now).data;
  }

  /** How a probe ends. `ErrTimeExceeded` is the exported error; the others carry the
      texts "Destination unreachable" and "Unhandled ICMP type: <type>".
      `DeadlineExceeded` is only produced by the corrected read loop. */
  datatype PingError =
    | InvalidOpts(msg: string)
    | SocketError
    | ErrTimeExceeded
    | DestinationUnreachableError
    | UnhandledType(kind: int)
    | DeadlineExceeded

  /** `ICMPPingResponse`. */
  datatype PingResponse = PingResponse(body: Echo, peer: string)

  /** One read from the socket: a read error (`timeout` when the read deadline has
      passed), a message that does not parse, or a parsed message. */
  datatype Read = ReadFailed(timeout: bool) | ParseFailed | Received(msg: Message)

  /** The `switch` of `Ping` as written: `None` means "keep reading". An Echo Reply
      settles the probe only when its identifier equals the process id and its
      sequence number the probe's. */
  function Classify(m: Message, pid: int, sequence: int): Option<Result<PingResponse, PingError>> {
    match m
    case EchoReply(body, peer) =>
      if body.id == pid && body.sequence == sequence then Some(Success(PingResponse(body, peer))) else None
    case TimeExceeded(_) => Some(Failure(ErrTimeExceeded))
    case DestinationUnreachable(_) => Some(Failure(DestinationUnreachableError))
    case Other(k, _) => Some(Failure(UnhandledType(k)))
  }

  /** The same `switch`, comparing against the values the 16-bit fields can hold. */
  function ClassifyWire(m: Message, pid: int, sequence: int): Option<Result<PingResponse, PingError>> {
    match m
    case EchoReply(body, peer) =>
      if body.id == Wire16(pid) && body.sequence == Wire16(sequence) then Some(Success(PingResponse(body, peer)))
      else None
    case TimeExceeded(_) => Some(Failure(ErrTimeExceeded))
    case DestinationUnreachable(_) => Some(Failure(DestinationUnreachableError))
    case Other(k, _) => Some(Failure(UnhandledType(k)))
  }

  /** Every message other than an Echo Reply settles the probe, with an error, in both
      versions alike; an Echo Reply never settles it with an error. */
  lemma ClassifyErrors(m: Message, pid: int, sequence: int)
    ensures !m.EchoReply? ==> Classify(m, pid, sequence).Some? && Classify(m, pid, sequence).value.Failure?
    ensures !m.EchoReply? ==> ClassifyWire(m, pid, sequence) == Classify(m, pid, sequence)
    ensures m.TimeExceeded? ==> Classify(m, pid, sequence) == Some(Failure(ErrTimeExceeded))
    ensures m.EchoReply? ==> Classify(m, pid, sequence).None? || Classify(m, pid, sequence).value.Success?
  {
  }

  /** As written, the echo of our own probe is not recognised once the process id
      needs more than 16 bits: for pid 70000 the reply carries identifier 4464. */
  lemma OwnReplyRejectedForLargePid(o: PingOpts, now: int64, peer: string)
    requires 0 <= o.sequence < 0x1_0000
    ensures Classify(ReplyTo(EchoRequest(70000, o, now), peer), 70000, o.sequence).None?
  {
    assert Wire16(70000) == 4464;
  }

  /** Comparing wire values, the echo of our own probe always settles it successfully,
      whatever the process id and sequence number. */
  lemma OwnReplyAccepted(pid: int, o: PingOpts, now: int64, peer: string)
    ensures ClassifyWire(ReplyTo(EchoRequest(pid, o, now), peer), pid, o.sequence).Some?
    ensures ClassifyWire(ReplyTo(EchoRequest(pid, o, now), peer), pid, o.sequence).value.Success?
  {
  }

  /** Both versions agree whenever process id and sequence number fit in 16 bits. */
  lemma ClassifyAgreesOnSmallValues(m: Message, pid: int, sequence: int)
    requires 0 <= pid < 0x1_0000 && 0 <= sequence < 0x1_0000
    ensures ClassifyWire(m, pid, sequence) == Classify(m, pid, sequence)
  {
  }

  /** The read loop of `Ping` as written: read errors and parse errors are skipped with
      `continue`; the first message that settles the probe ends it. `None`: every read
      so far was skipped and the loop is still reading. */
  function ReadLoop(incoming: seq<Read>, pid: int, sequence: int): Option<Result<PingResponse, PingError>> {
    if |incoming| == 0 then None
    else
      match incoming[0]
      case Received(m) =>
        var c := Classify(m, pid, sequence);
        if c.Some? then c else ReadLoop(incoming[1..], pid, sequence)
      case _ => ReadLoop(incoming[1..], pid, sequence)
  }

  /** `n` reads after the deadline: each fails with a timeout. */
  function Timeouts(n: nat): (r: seq<Read>)
    ensures |r| == n && forall i :: 0 <= i < n ==> r[i] == ReadFailed(true)
  {
    seq(n, _ => ReadFailed(true))
  }

  /** Once the deadline has passed, every further read fails, and the loop as written
      skips each failure: a probe not settled by then is never settled, however long
      it keeps reading, so `Ping` never returns. */
  lemma {:induction false} ReadLoopSpinsPastDeadline(incoming: seq<Read>, pid: int, sequence: int, n: nat)
    requires ReadLoop(incoming, pid, sequence).None?
    ensures ReadLoop(incoming + Timeouts(n), pid, sequence).None?
  {
    if |incoming| == 0 {
      TimeoutsSkipped(n, pid, sequence);
      assert incoming + Timeouts(n) == Timeouts(n);
    } else {
      assert (incoming + Timeouts(n))[1..] == incoming[1..] + Timeouts(n);
      ReadLoopSpinsPastDeadline(incoming[1..], pid, sequence, n);
    }
  }

  lemma {:induction false} TimeoutsSkipped(n: nat, pid: int, sequence: int)
    ensures ReadLoop(Timeouts(n), pid, sequence).None?
  {
    if n > 0 {
      assert Timeouts(n)[1..] == Timeouts(n - 1);
      TimeoutsSkipped(n - 1, pid, sequence);
    }
  }

  /** The loop as it would be with the deadline honoured and wire values compared: a
      read that fails because the deadline passed ends the probe with
      `DeadlineExceeded`; other failures are still skipped. */
  function ReadLoopWithDeadline(incoming: seq<Read>, pid: int, sequence: int): Option<Result<PingResponse, PingError>> {
    if |incoming| == 0 then None
    else
      match incoming[0]
      case ReadFailed(true) => Some(Failure(DeadlineExceeded))
      case Received(m) =>
        var c := ClassifyWire(m, pid, sequence);
        if c.Some? then c else ReadLoopWithDeadline(incoming[1..], pid, sequence)
      case _ => ReadLoopWithDeadline(incoming[1..], pid, sequence)
  }

  /** With the deadline honoured, the probe is settled by the first read past the
      deadline at the latest. */
  lemma {:induction false} ReadLoopWithDeadlineReturns(incoming: seq<Read>, pid: int, sequence: int)
    ensures ReadLoopWithDeadline(incoming + Timeouts(1), pid, sequence).Some?
  {
    if |incoming| == 0 {
      assert incoming + Timeouts(1) == [ReadFailed(true)];
    } else {
      assert (incoming + Timeouts(1))[1..] == incoming[1..] + Timeouts(1);
      ReadLoopWithDeadlineReturns(incoming[1..], pid, sequence);
    }
  }

  /** Before the deadline both loops settle the probe the same way, for 16-bit
      identifiers and sequence numbers. */
  lemma {:induction false} ReadLoopsAgreeBeforeDeadline(incoming: seq<Read>, pid: int, sequence: int)
    requires 0 <= pid < 0x1_0000 && 0 <= sequence < 0x1_0000
    requires forall i :: 0 <= i < |incoming| ==> incoming[i] != ReadFailed(true)
    ensures ReadLoopWithDeadline(incoming, pid, sequence) == ReadLoop(incoming, pid, sequence)
  {
    if |incoming| > 0 {
      if incoming[0].Received? {
        ClassifyAgreesOnSmallValues(incoming[0].msg, pid, sequence);
      }
      ReadLoopsAgreeBeforeDeadline(incoming[1..], pid, sequence);
    }
  }

  /** `Ping` as written: check the options, send the Echo request (`sent` is false when
      setting the TTL, marshalling, writing or setting the deadline failed), then read
      with the loop as written. `None` means the probe is still reading. */
  function Ping(o: PingOpts, pid: int, sent: bool, incoming: seq<Read>): (r: Option<Result<PingResponse, PingError>>)
    ensures o.ip == "" ==> r == Some(Failure(InvalidOpts(OPTS_ERROR)))
    ensures o.ip != "" && !sent ==> r == Some(Failure(SocketError))
  {
    match CheckOpts(o)
    case Failure(e) => Some(Failure(InvalidOpts(e)))
    case Success(checked) =>
      if !sent then Some(Failure(SocketError))
      else ReadLoop(incoming, pid, checked.sequence)
  }

  /** `Ping` reading with `ReadLoopWithDeadline` instead. */
  function PingWithDeadline(o: PingOpts, pid: int, sent: bool, incoming: seq<Read>): (r: Option<Result<PingResponse, PingError>>)
    ensures o.ip == "" ==> r == Some(Failure(InvalidOpts(OPTS_ERROR)))
    ensures o.ip != "" && !sent ==> r == Some(Failure(SocketError))
  {
    match CheckOpts(o)
    case Failure(e) => Some(Failure(InvalidOpts(e)))
    case Success(checked) =>
      if !sent then Some(Failure(SocketError))
      else ReadLoopWithDeadline(incoming, pid, checked.sequence)
  }

  /** As written, a probe whose identifier and sequence number fit in 16 bits succeeds
      with its target's answer after any reads the loop skips: failed reads (past the
      deadline or not), unparsable messages and Echo Replies that are not ours. */
  lemma PingAnswered(o: PingOpts, pid: int, now: int64, peer: string, skipped: seq<Read>)
    requires o.ip != ""
    requires 0 <= pid < 0x1_0000 && 0 <= o.sequence < 0x1_0000
    requires forall i :: 0 <= i < |skipped| ==> skipped[i].Received? ==> Classify(skipped[i].msg, pid, o.sequence).None?
    ensures var reply := ReplyTo(EchoRequest(pid, o, now), peer);
      Ping(o, pid, true, skipped + [Received(reply)]) == Some(Success(PingResponse(reply.body, peer)))
  {
    var reply := ReplyTo(EchoRequest(pid, o, now), peer);
    SkippedReads(skipped, [Received(reply)], pid, o.sequence);
  }

  /** As written, a probe still unsettled when the deadline passes stays unsettled. */
  lemma PingSpinsPastDeadline(o: PingOpts, pid: int, incoming: seq<Read>, n: nat)
    requires Ping(o, pid, true, incoming).None?
    ensures Ping(o, pid, true, incoming + Timeouts(n)).None?
  {
    ReadLoopSpinsPastDeadline(incoming, pid, o.sequence, n);
  }

  /** The loop as written passes over the reads it skips without a trace. */
  lemma {:induction false} SkippedReads(skipped: seq<Read>, rest: seq<Read>, pid: int, sequence: int)
    requires forall i :: 0 <= i < |skipped| ==> skipped[i].Received? ==> Classify(skipped[i].msg, pid, sequence).None?
    ensures ReadLoop(skipped + rest, pid, sequence) == ReadLoop(rest, pid, sequence)
  {
    if |skipped| > 0 {
      assert (skipped + rest)[1..] == skipped[1..] + rest;
      SkippedReads(skipped[1..], rest, pid, sequence);
    } else {
      assert skipped + rest == rest;
    }
  }

  /** With the corrected loop, a probe succeeds with its target's answer whatever the
      process id and sequence number, after any reads skipped before the deadline. */
  lemma PingWithDeadlineAnswered(o: PingOpts, pid: int, now: int64, peer: string, skipped: seq<Read>)
    requires o.ip != ""
    requires forall i :: 0 <= i < |skipped| ==> skipped[i] != ReadFailed(true)
    requires forall i :: 0 <= i < |skipped| ==> skipped[i].Received? ==> ClassifyWire(skipped[i].msg, pid, o.sequence).None?
    ensures var reply := ReplyTo(EchoRequest(pid, o, now), peer);
      PingWithDeadline(o, pid, true, skipped + [Received(reply)]) == Some(Success(PingResponse(reply.body, peer)))
  {
    var reply := ReplyTo(EchoRequest(pid, o, now), peer);
    SkippedReadsWithDeadline(skipped, [Received(reply)], pid, o.sequence);
  }

  /** With the corrected loop, a probe that has been sent is settled by the first read
      past the deadline at the latest. */
  lemma PingWithDeadlineReturns(o: PingOpts, pid: int, incoming: seq<Read>)
    requires o.ip != ""
    ensures PingWithDeadline(o, pid, true, incoming + Timeouts(1)).Some?
  {
    ReadLoopWithDeadlineReturns(incoming, pid, o.sequence);
  }

  /** The corrected loop passes over the reads it skips before the deadline. */
  lemma {:induction false} SkippedReadsWithDeadline(skipped: seq<Read>, rest: seq<Read>, pid: int, sequence: int)
    requires forall i :: 0 <= i < |skipped| ==> skipped[i] != ReadFailed(true)
    requires forall i :: 0 <= i < |skipped| ==> skipped[i].Received? ==> ClassifyWire(skipped[i].msg, pid, sequence).None?
    ensures ReadLoopWithDeadline(skipped + rest, pid, sequence) == ReadLoopWithDeadline(rest, pid, sequence)
  {
    if |skipped| > 0 {
      assert (skipped + rest)[1..] == skipped[1..] + rest;
      SkippedReadsWithDeadline(skipped[1..], rest, pid, sequence);
    } else {
      assert skipped + rest == rest;
    }
  }
}

=== FILE: ips.dfy ===
/** Target-list parsing of internal/utils/get_ips.go: split on commas, trim every
    piece, keep the non-blank ones in input order, fail when none is left. */
module Ips {
  import opened Strings
  import opened Wrappers

  const NoIpsError: string := "No valid IP addresses supplied"

  /** Every piece, trimmed. */
  function TrimAll(pieces: seq<string>): (r: seq<string>)
    ensures |r| == |pieces|
    ensures forall i :: 0 <= i < |r| ==> r[i] == TrimSpace(pieces[i])
  {
    seq(|pieces|, i requires 0 <= i < |pieces| => TrimSpace(pieces[i]))
  }

  /** The non-empty strings of `xs`, in their original order. */
  function KeepNonBlank(xs: seq<string>): seq<string> {
    if |xs| == 0 then []
    else
      var init := KeepNonBlank(xs[..|xs| - 1]);
      if xs[|xs| - 1] != "" then init + [xs[|xs| - 1]] else init
  }

  /** No more strings are kept than were given, and none of them is empty. */
  lemma {:induction false} KeepNonBlankShape(xs: seq<string>)
    ensures |KeepNonBlank(xs)| <= |xs|
    ensures forall i :: 0 <= i < |KeepNonBlank(xs)| ==> KeepNonBlank(xs)[i] != ""
  {
    if |xs| > 0 {
      KeepNonBlankShape(xs[..|xs| - 1]);
    }
  }

  /** Every kept string is one of the inputs. */
  lemma {:induction false} KeepNonBlankFrom(xs: seq<string>, i: nat)
    requires i < |KeepNonBlank(xs)|
    ensures exists k :: 0 <= k < |xs| && xs[k] == KeepNonBlank(xs)[i]
  {
    var init := KeepNonBlank(xs[..|xs| - 1]);
    if i < |init| {
      KeepNonBlankFrom(xs[..|xs| - 1], i);
      var k :| 0 <= k < |xs| - 1 && xs[..|xs| - 1][k] == init[i];
      assert xs[k] == KeepNonBlank(xs)[i];
    } else {
      assert xs[|xs| - 1] == KeepNonBlank(xs)[i];
    }
  }

  /** Nothing is kept exactly when every input is empty. */
  lemma {:induction false} KeepNonBlankEmpty(xs: seq<string>)
    ensures KeepNonBlank(xs) == [] <==> forall i :: 0 <= i < |xs| ==> xs[i] == ""
  {
    if |xs| > 0 {
      KeepNonBlankEmpty(xs[..|xs| - 1]);
      assert forall i :: 0 <= i < |xs| - 1 ==> xs[..|xs| - 1][i] == xs[i];
    }
  }

  lemma TrimAllSnoc(pieces: seq<string>, p: string)
    ensures TrimAll(pieces + [p]) == TrimAll(pieces) + [TrimSpace(p)]
  {
  }

  lemma KeepNonBlankSnoc(xs: seq<string>, x: string)
    ensures KeepNonBlank(xs + [x]) == KeepNonBlank(xs) + (if x != "" then [x] else [])
  {
    assert (xs + [x])[..|xs|] == xs;
  }

  /** When no string is empty, all are kept. */
  lemma {:induction false} KeepNonBlankAll(xs: seq<string>)
    requires forall i :: 0 <= i < |xs| ==> xs[i] != ""
    ensures KeepNonBlank(xs) == xs
  {
    if |xs| > 0 {
      KeepNonBlankAll(xs[..|xs| - 1]);
      assert xs[..|xs| - 1] + [xs[|xs| - 1]] == xs;
    }
  }

  /** The reference definition of the parsed list: filter(non-blank, map(trim, split)). */
  function Targets(s: string): seq<string> {
    KeepNonBlank(TrimAll(Split(s, ',')))
  }

  /** Parsing pieces that were joined by commas trims each piece and drops the blank
      ones. */
  lemma TargetsOfJoin(parts: seq<string>, trimmed: seq<string>)
    requires |parts| > 0 && |trimmed| == |parts|
    requires forall i :: 0 <= i < |parts| ==> ',' !in parts[i] && TrimSpace(parts[i]) == trimmed[i]
    ensures Targets(Join(parts, ',')) == KeepNonBlank(trimmed)
  {
    JoinSplit(parts, ',');
    assert TrimAll(parts) == trimmed;
  }

  /** Every parsed target is non-empty, has no white space at either end and no comma;
      there are at most as many targets as pieces. */
  lemma TargetsWellFormed(s: string)
    ensures |Targets(s)| <= Count(s, ',') + 1
    ensures forall i :: 0 <= i < |Targets(s)| ==>
      var t := Targets(s)[i]; t != "" && Trimmed(t) && ',' !in t
  {
    var pieces := Split(s, ',');
    var trimmed := TrimAll(pieces);
    SplitShape(s, ',');
    KeepNonBlankShape(trimmed);
    forall i | 0 <= i < |Targets(s)|
      ensures Trimmed(Targets(s)[i]) && ',' !in Targets(s)[i]
    {
      var t := Targets(s)[i];
      KeepNonBlankFrom(trimmed, i);
      var k :| 0 <= k < |trimmed| && trimmed[k] == t;
      assert t == TrimSpace(pieces[k]);
      TrimSpaceContract(pieces[k]);
      assert ',' !in pieces[k];
    }
  }

  /** If every piece is blank, the join holds nothing but commas and white space;
      `BlankJoinHasBlankPieces` states the converse for comma-free pieces. */
  lemma {:induction false} JoinOfBlankPieces(pieces: seq<string>)
    requires |pieces| > 0
    ensures (forall i :: 0 <= i < |pieces| ==> AllSpace(pieces[i])) ==>
      forall j :: 0 <= j < |Join(pieces, ',')| ==> Join(pieces, ',')[j] == ',' || IsSpace(Join(pieces, ',')[j])
  {
    if |pieces| > 1 {
      JoinOfBlankPieces(pieces[1..]);
      if forall i :: 0 <= i < |pieces| ==> AllSpace(pieces[i]) {
        assert forall i :: 0 <= i < |pieces[1..]| ==> AllSpace(pieces[1..][i]) by {
          forall i | 0 <= i < |pieces[1..]| ensures AllSpace(pieces[1..][i]) {
            assert pieces[1..][i] == pieces[i + 1];
          }
        }
        var j := Join(pieces, ',');
        var rest := Join(pieces[1..], ',');
        assert j == pieces[0] + [','] + rest;
        forall k | 0 <= k < |j| ensures j[k] == ',' || IsSpace(j[k]) {
          if k < |pieces[0]| {
            assert j[k] == pieces[0][k];
          } else if k > |pieces[0]| {
            assert j[k] == rest[k - |pieces[0]| - 1];
          }
        }
      }
    }
  }

  /** Conversely, comma-free pieces that join to nothing but commas and white space are
      all blank. */
  lemma {:induction false} BlankJoinHasBlankPieces(pieces: seq<string>)
    requires |pieces| > 0
    requires forall i :: 0 <= i < |pieces| ==> ',' !in pieces[i]
    requires forall j :: 0 <= j < |Join(pieces, ',')| ==> Join(pieces, ',')[j] == ',' || IsSpace(Join(pieces, ',')[j])
    ensures forall i :: 0 <= i < |pieces| ==> AllSpace(pieces[i])
  {
    var j := Join(pieces, ',');
    var head := pieces[0];
    if |pieces| == 1 {
      assert j == head;
    } else {
      assert j == head + [','] + Join(pieces[1..], ',');
    }
    forall k | 0 <= k < |head| ensures IsSpace(head[k]) {
      assert j[k] == head[k];
      assert head[k] in head;
    }
    if |pieces| > 1 {
      var rest := Join(pieces[1..], ',');
      forall k | 0 <= k < |rest| ensures rest[k] == ',' || IsSpace(rest[k]) {
        assert rest[k] == j[|head| + 1 + k];
      }
      forall i | 0 <= i < |pieces[1..]| ensures ',' !in pieces[1..][i] {
        assert pieces[1..][i] == pieces[i + 1];
      }
      BlankJoinHasBlankPieces(pieces[1..]);
      forall i | 1 <= i < |pieces| ensures AllSpace(pieces[i]) {
        assert pieces[i] == pieces[1..][i - 1];
      }
    }
  }

  /** Parsing finds no target exactly when every character is a comma or white space,
      for example "" or " , ". */
  lemma NoTargetsIffBlank(s: string)
    ensures Targets(s) == [] <==> forall j :: 0 <= j < |s| ==> s[j] == ',' || IsSpace(s[j])
  {
    var pieces := Split(s, ',');
    KeepNonBlankEmpty(TrimAll(pieces));
    SplitShape(s, ',');
    if forall j :: 0 <= j < |s| ==> s[j] == ',' || IsSpace(s[j]) {
      forall i | 0 <= i < |pieces| ensures TrimAll(pieces)[i] == "" {
        TrimSpaceContract(pieces[i]);
        assert AllSpace(pieces[i]) by {
          forall k | 0 <= k < |pieces[i]| ensures IsSpace(pieces[i][k]) {
            SplitPiecesFromInput(s, ',', i, k);
          }
        }
      }
    } else {
      if Targets(s) == [] {
        assert forall i :: 0 <= i < |pieces| ==> AllSpace(pieces[i]) by {
          forall i | 0 <= i < |pieces| ensures AllSpace(pieces[i]) {
            assert TrimAll(pieces)[i] == "";
            TrimSpaceContract(pieces[i]);
          }
        }
        JoinOfBlankPieces(pieces);
        SplitJoin(s, ',');
        assert false;
      }
    }
  }

  /** The loop of `GetIps`: append each trimmed non-blank piece in turn. */
  method CollectTargets(ips: seq<string>) returns (processed: seq<string>)
    ensures processed == KeepNonBlank(TrimAll(ips))
  {
    processed := [];
    var i := 0;
    while i < |ips|
      invariant 0 <= i <= |ips|
      invariant processed == KeepNonBlank(TrimAll(ips[..i]))
    {
      var ip := TrimSpace(ips[i]);
      assert ips[..i + 1] == ips[..i] + [ips[i]];
      TrimAllSnoc(ips[..i], ips[i]);
      KeepNonBlankSnoc(TrimAll(ips[..i]), ip);
      if ip != "" {
        processed := processed + [ip];
      }
      i := i + 1;
    }
    assert ips[..i] == ips;
  }

  /** `GetIps` as the source writes it: split, collect the trimmed non-blank pieces,
      and report an error when there are none. */
  method GetIps(s: string) returns (r: Result<seq<string>, string>)
    ensures r.Success? <==> Targets(s) != []
    ensures r.Success? ==> r.value == Targets(s)
    ensures r.Failure? ==> r.error == NoIpsError
  {
    var ips := Split(s, ',');
    var processed := CollectTargets(ips);
    if |processed| == 0 {
      return Failure(NoIpsError);
    }
    return Success(processed);
  }
}

=== FILE: manager.dfy ===
/** The policy of internal/monitoring/manager.go: the scheduled-trace countdown run at
    every interval start, the zero-duration filter on responses, the escalation of
    long loss streaks to a traceroute at interval end, the skip of "192.168" addresses,
    and the 03:00-03:05 UTC window, placed on the host's local date, in which losses
    are not counted. The network
    a trace sees and the clock are inputs. */
module Manager {
  import opened Wrappers
  import opened Strings
  import opened Flags
  import opened Clock
  import Tracker
  import TimeoutTracker
  import Traceroute
  import Timestamp

  /** Addresses with this prefix are never traced. */
  const LAN_PREFIX: string := "192.168"

  /** What happens at each of the 30 TTLs of one trace. */
  type TraceSteps = s: seq<Traceroute.Step> | |s| == Traceroute.MAX_TTL
    witness seq(Traceroute.MAX_TTL, _ => Traceroute.Step(false, 0, false, []))

  /** The network as a trace sees it: whether `net.ResolveIPAddr` resolves an address,
      what happens at each TTL when it is traced, and reverse DNS. */
  datatype Net = Net(resolves: string -> bool, steps: string -> TraceSteps, lookup: string -> seq<string>)

  /** The manager's options: the targets, `TraceFrequency` (a scheduled trace every
      that many intervals) and `TraceTimeoutThreshold` (the streak that triggers a
      trace). */
  datatype Settings = Settings(pingIps: seq<string>, traceFrequency: int, threshold: int)

  /** The manager's state: the loss tracker, the last good trace of each address, and
      the intervals left until the next scheduled trace. */
  datatype Manager = Manager(
    timeouts: TimeoutTracker.TimeoutTracker,
    traces: Tracker.Tracker<seq<Traceroute.Hop>>,
    countdown: int)

  /** `NewManager` after the ping loop was created: every target tracked with no reply
      and no streak, no trace stored, and a full countdown. */
  function New(c: Settings): (m: Manager)
    ensures m.timeouts.replies.vals.Keys == set ip | ip in c.pingIps
    ensures forall ip :: ip in c.pingIps ==> TimeoutTracker.Count(m.timeouts, ip) == 0
    ensures m.traces.vals == map[] && m.countdown == c.traceFrequency
  {
    Manager(TimeoutTracker.New(c.pingIps), Tracker.New(), c.traceFrequency)
  }

  /** `runTrace`: the hops to `ip`, or `None` when `ip` is on the LAN, does not
      resolve, or the traceroute fails. */
  function RunTrace(ip: string, net: Net): (r: Option<seq<Traceroute.Hop>>)
    ensures HasPrefix(ip, LAN_PREFIX) ==> r.None?
    ensures r.Some? ==> net.resolves(ip) && Traceroute.Trace(net.steps(ip), net.lookup).0 == Success(r.value)
  {
    if HasPrefix(ip, LAN_PREFIX) then None
    else if !net.resolves(ip) then None
    else
      match Traceroute.Trace(net.steps(ip), net.lookup).0
      case Success(hops) => Some(hops)
      case Failure(_) => None
  }

  /** Outside the LAN, a resolved address whose traceroute succeeds is traced. */
  lemma RunTraceSucceeds(ip: string, net: Net)
    requires !HasPrefix(ip, LAN_PREFIX) && net.resolves(ip)
    requires Traceroute.Trace(net.steps(ip), net.lookup).0.Success?
    ensures RunTrace(ip, net) == Some(Traceroute.Trace(net.steps(ip), net.lookup).0.value)
  {
  }

  /** The first two built-in targets are LAN addresses and are never traced; the other
      three are not. */
  lemma DefaultTargetsOnLan(net: Net)
    ensures RunTrace("192.168.68.1", net).None? && RunTrace("192.168.1.1", net).None?
    ensures !HasPrefix("1.1.1.1", LAN_PREFIX) && !HasPrefix("8.8.8.8", LAN_PREFIX)
    ensures !HasPrefix("79.79.79.79", LAN_PREFIX)
  {
    assert "192.168.68.1"[..7] == LAN_PREFIX;
    assert "192.168.1.1"[..7] == LAN_PREFIX;
    assert "1.1.1.1"[..7] != LAN_PREFIX by { assert "1.1.1.1"[0..7][1] != LAN_PREFIX[1]; }
    assert "8.8.8.8"[..7] != LAN_PREFIX by { assert "8.8.8.8"[..7][0] != LAN_PREFIX[0]; }
    assert "79.79.79.79"[..7] != LAN_PREFIX by { assert "79.79.79.79"[..7][0] != LAN_PREFIX[0]; }
  }

  /** The scheduled traces of one interval start: each of `ips` in turn is traced and a
      successful trace replaces the stored one. */
  function StoreTraces(traces: Tracker.Tracker<seq<Traceroute.Hop>>, ips: seq<string>, net: Net)
    : (r: Tracker.Tracker<seq<Traceroute.Hop>>)
    ensures forall ip :: ip in ips && RunTrace(ip, net).Some? ==>
      ip in r.vals && r.vals[ip] == RunTrace(ip, net).value
    ensures forall ip :: (ip !in ips || RunTrace(ip, net).None?) ==>
      (ip in r.vals <==> ip in traces.vals) && (ip in traces.vals ==> r.vals[ip] == traces.vals[ip])
    decreases |ips|
  {
    if |ips| == 0 then traces
    else
      var next := match RunTrace(ips[0], net)
        case Some(hops) => Tracker.Set(traces, ips[0], hops)
        case None => traces;
      StoreTraces(next, ips[1..], net)
  }

  /** `OnIntervalStart`: count the countdown down; when it reaches exactly zero, trace
      every target; when it is zero or below, restart it at `TraceFrequency`. Also
      returns the addresses whose trace was attempted. */
  function OnIntervalStart(m: Manager, c: Settings, net: Net): (r: (Manager, seq<string>))
    ensures r.0.timeouts == m.timeouts
  {
    var countdown := m.countdown - 1;
    var attempted := if countdown == 0 then c.pingIps else [];
    var traces := StoreTraces(m.traces, attempted, net);
    (m.(traces := traces, countdown := if countdown <= 0 then c.traceFrequency else countdown), attempted)
  }

  /** With a positive frequency, a countdown in [1, F] stays there, and the targets are
      traced exactly when the countdown was 1; every successful trace is stored. */
  lemma IntervalStartKeepsCountdown(m: Manager, c: Settings, net: Net)
    requires 1 <= c.traceFrequency && 1 <= m.countdown <= c.traceFrequency
    ensures var (r, attempted) := OnIntervalStart(m, c, net);
      1 <= r.countdown <= c.traceFrequency
      && (attempted == c.pingIps <==> m.countdown == 1 || c.pingIps == [])
      && (m.countdown != 1 ==> attempted == [] && r.traces == m.traces && r.countdown == m.countdown - 1)
      && (m.countdown == 1 ==>
            r.countdown == c.traceFrequency
            && forall ip :: ip in c.pingIps && RunTrace(ip, net).Some? ==> r.traces.vals[ip] == RunTrace(ip, net).value)
  {
  }

  /** With a frequency of zero or below, a manager started with it never traces and
      its countdown never moves. */
  lemma NoScheduleWithoutFrequency(m: Manager, c: Settings, net: Net)
    requires c.traceFrequency <= 0 && m.countdown == c.traceFrequency
    ensures OnIntervalStart(m, c, net) == (m, [])
  {
  }

  /** For every state: the targets are traced exactly when the countdown was 1, a
      countdown of 1 or below restarts at `TraceFrequency` and any other goes down by
      one; a successful trace replaces the stored one, and every other stored trace and
      the loss tracker are left alone. */
  lemma IntervalStartRule(m: Manager, c: Settings, net: Net)
    ensures var (r, attempted) := OnIntervalStart(m, c, net);
      r.timeouts == m.timeouts
      && attempted == (if m.countdown == 1 then c.pingIps else [])
      && r.countdown == (if m.countdown <= 1 then c.traceFrequency else m.countdown - 1)
      && (forall ip :: ip in attempted && RunTrace(ip, net).Some? ==> ip in r.traces.vals && r.traces.vals[ip] == RunTrace(ip, net).value)
      && (forall ip :: (ip !in attempted || RunTrace(ip, net).None?) ==>
            (ip in r.traces.vals <==> ip in m.traces.vals) && (ip in m.traces.vals ==> r.traces.vals[ip] == m.traces.vals[ip]))
  {
  }

  /** `|nets|` interval starts, one network per interval: the final state and, per
      interval, the addresses traced. */
  function Starts(m: Manager, c: Settings, nets: seq<Net>): (Manager, seq<seq<string>>)
    decreases |nets|
  {
    if |nets| == 0 then (m, [])
    else
      var (before, log) := Starts(m, c, nets[..|nets| - 1]);
      var (after, attempted) := OnIntervalStart(before, c, nets[|nets| - 1]);
      (after, log + [attempted])
  }

  /** Counting one more interval moves the remainder on by one, wrapping at `f`. */
  lemma NextRemainder(j: nat, f: int)
    requires f >= 1
    ensures (j + 1) % f == if j % f == f - 1 then 0 else j % f + 1
  {
    var q, r := j / f, j % f;
    if r == f - 1 {
      Timestamp.DivModUnique(j + 1, f, q + 1, 0);
    } else {
      Timestamp.DivModUnique(j + 1, f, q, r + 1);
    }
  }

  /** From `NewManager`, with frequency F >= 1, the countdown after j interval starts is
      F - j mod F, and interval i (counted from 1) traces every target exactly when F
      divides i: scheduled traces fire every F-th interval, starting with the F-th. */
  lemma {:induction false} ScheduledEveryF(c: Settings, nets: seq<Net>)
    requires c.traceFrequency >= 1
    ensures var (m, log) := Starts(New(c), c, nets);
      m.countdown == c.traceFrequency - |nets| % c.traceFrequency
      && |log| == |nets|
      && forall i :: 0 <= i < |log| ==> log[i] == if (i + 1) % c.traceFrequency == 0 then c.pingIps else []
    decreases |nets|
  {
    var f := c.traceFrequency;
    if |nets| > 0 {
      var j := |nets| - 1;
      ScheduledEveryF(c, nets[..j]);
      var (before, log) := Starts(New(c), c, nets[..j]);
      NextRemainder(j, f);
      assert before.countdown == f - j % f;
      assert Starts(New(c), c, nets) == (OnIntervalStart(before, c, nets[j]).0, log + [OnIntervalStart(before, c, nets[j]).1]);
    }
  }

  /** `OnResponse`: a positive round-trip time flags the peer as replied; a zero or
      negative one, which arrives after a timeout, changes nothing. */
  function OnResponse(m: Manager, peer: string, duration: int): (r: Manager)
    ensures duration <= 0 ==> r == m
    ensures duration > 0 ==> r.timeouts == TimeoutTracker.ReplyReceived(m.timeouts, peer)
    ensures r.traces == m.traces && r.countdown == m.countdown
  {
    if duration > 0 then m.(timeouts := TimeoutTracker.ReplyReceived(m.timeouts, peer)) else m
  }

  /** A peer answered with a positive round-trip time is not reported at the end of the
      interval, and its streak goes back to zero. */
  lemma ResponseClearsLoss(m: Manager, peer: string, duration: int)
    requires duration > 0
    ensures var tt := OnResponse(m, peer, duration).timeouts;
      peer !in Unreplied(tt.replies.vals) && TimeoutTracker.Count(TimeoutTracker.Advance(tt), peer) == 0
  {
  }

  /** Go's `time.Time.Compare`: -1, 0 or +1. */
  function Compare(a: int, b: int): (r: int)
    ensures r == -1 <==> a < b
    ensures r == 1 <==> a > b
    ensures r == 0 <==> a == b
  {
    if a < b then -1 else if a > b then 1 else 0
  }

  /** The test of `shouldCountTimeouts` for a given day: false exactly when `now` lies
      after 03:00 and no later than 03:05 on that day (UTC midnight `dayStart`). */
  predicate OutsideDowntime(now: int, dayStart: int) {
    var downtimeStart := dayStart + 3 * HOUR;
    var downtimeEnd := dayStart + 3 * HOUR + 5 * MINUTE;
    !(Compare(downtimeStart, now) == -1 && Compare(downtimeEnd, now) != -1)
  }

  /** `shouldCountTimeouts` as written: the calendar date is read in the host's zone,
      `offset` nanoseconds east of UTC, and the window is placed on that date at 03:00
      UTC. */
  predicate ShouldCountAsWritten(now: int, offset: int) {
    var localDay := (now + offset) / DAY;
    OutsideDowntime(now, localDay * DAY)
  }

  /** `shouldCountTimeouts` with the date read in UTC, the zone of the window: the
      window is the one of `now`'s own day. */
  predicate ShouldCount(now: int) {
    OutsideDowntime(now, (now / DAY) * DAY)
  }

  /** Counting stops exactly when the UTC time of day is after 03:00:00 and no later
      than 03:05:00, every day. */
  lemma ShouldCountWindow(now: int)
    ensures !ShouldCount(now) <==> 3 * HOUR < now % DAY <= 3 * HOUR + 5 * MINUTE
  {
  }

  /** The same window read on a calendar instant: counting stops exactly for the
      instants after 03:00:00 and up to 03:05:00 UTC, whatever the date. */
  lemma ShouldCountOnCalendar(year: int, month: int, day: int, hour: nat, min: nat, sec: nat, nsec: nat)
    requires 1 <= month <= 12 && 1 <= day <= 31
    requires hour < 24 && min < 60 && sec < 60 && nsec < SECOND
    ensures var timeOfDay := hour * HOUR + min * MINUTE + sec * SECOND + nsec;
      !ShouldCount(UtcNanos(year, month, day, hour, min, sec, nsec)) <==> 3 * HOUR < timeOfDay <= 3 * HOUR + 5 * MINUTE
  {
    var timeOfDay := hour * HOUR + min * MINUTE + sec * SECOND + nsec;
    var now := UtcNanos(year, month, day, hour, min, sec, nsec);
    assert timeOfDay < DAY;
    Timestamp.DivModUnique(now, DAY, DaysFromCivil(year, month, day), timeOfDay);
    ShouldCountWindow(now);
  }

  /** On a host running in UTC the code as written counts exactly when intended. */
  lemma AsWrittenAgreesInUtc(now: int)
    ensures ShouldCountAsWritten(now, 0) == ShouldCount(now)
  {
  }

  /** West of UTC by more than 3 h 05 min (all of the Americas, for example) the code as
      written never stops counting: the local date of an instant between 03:00 and
      03:05 UTC is the day before, whose window is long past. */
  lemma AsWrittenNeverPausesFarWest(now: int, offset: int)
    requires offset < -(3 * HOUR + 5 * MINUTE)
    ensures ShouldCountAsWritten(now, offset)
  {
  }

  /** The instance: 2025-12-25 at 03:02 UTC, on a host at UTC-5, is inside the window
      but the code as written keeps counting. */
  lemma DowntimeMissedAtUtcMinus5(now: int)
    requires now == UtcNanos(2025, 12, 25, 3, 2, 0, 0)
    ensures !ShouldCount(now) && ShouldCountAsWritten(now, -5 * HOUR)
  {
    ShouldCountOnCalendar(2025, 12, 25, 3, 2, 0, 0);
    AsWrittenNeverPausesFarWest(now, -5 * HOUR);
  }

  /** The escalation loop of `OnIntervalEnd`, over the reported losses in order: a loss
      whose streak reached `threshold` triggers a trace, and a successful trace resets
      that streak. Also returns the addresses whose trace was attempted. */
  function Escalate(tt: TimeoutTracker.TimeoutTracker, losses: seq<TimeoutTracker.Timeout>, threshold: int, net: Net)
    : (TimeoutTracker.TimeoutTracker, seq<string>)
    decreases |losses|
  {
    if |losses| == 0 then (tt, [])
    else
      var (before, attempted) := Escalate(tt, losses[..|losses| - 1], threshold, net);
      var t := losses[|losses| - 1];
      if t.count < threshold then (before, attempted)
      else if RunTrace(t.ip, net).Some? then (TimeoutTracker.ResetCount(before, t.ip), attempted + [t.ip])
      else (before, attempted + [t.ip])
  }

  /** The streak of `ip` is reset by the escalation loop exactly when one of its losses
      reached the threshold and its trace succeeded. */
  predicate Escalates(losses: seq<TimeoutTracker.Timeout>, threshold: int, net: Net, ip: string) {
    RunTrace(ip, net).Some? && exists i :: 0 <= i < |losses| && losses[i].ip == ip && losses[i].count >= threshold
  }

  /** What the escalation loop does: a streak is zeroed only when its trace succeeded,
      skipped and failed traces leave it; every loss at or over the threshold, and no
      other, gets a trace; the reply flags are not touched. */
  lemma {:induction false} EscalateContract(tt: TimeoutTracker.TimeoutTracker, losses: seq<TimeoutTracker.Timeout>,
                                            threshold: int, net: Net)
    ensures var (r, attempted) := Escalate(tt, losses, threshold, net);
      r.replies == tt.replies
      && (forall ip :: TimeoutTracker.Count(r, ip) == if Escalates(losses, threshold, net, ip) then 0 else TimeoutTracker.Count(tt, ip))
      && (forall ip :: ip in attempted <==> exists i :: 0 <= i < |losses| && losses[i].ip == ip && losses[i].count >= threshold)
    decreases |losses|
  {
    if |losses| > 0 {
      var n := |losses| - 1;
      EscalateContract(tt, losses[..n], threshold, net);
      forall ip
        ensures Escalates(losses, threshold, net, ip)
          <==> (Escalates(losses[..n], threshold, net, ip)
                || (losses[n].ip == ip && losses[n].count >= threshold && RunTrace(ip, net).Some?))
        ensures (exists i :: 0 <= i < |losses| && losses[i].ip == ip && losses[i].count >= threshold)
          <==> ((exists i :: 0 <= i < n && losses[..n][i].ip == ip && losses[..n][i].count >= threshold)
                || (losses[n].ip == ip && losses[n].count >= threshold))
      {
        if exists i :: 0 <= i < |losses| && losses[i].ip == ip && losses[i].count >= threshold {
          var i :| 0 <= i < |losses| && losses[i].ip == ip && losses[i].count >= threshold;
          if i < n {
            assert losses[..n][i] == losses[i];
          }
        }
        if exists i :: 0 <= i < n && losses[..n][i].ip == ip && losses[..n][i].count >= threshold {
          var i :| 0 <= i < n && losses[..n][i].ip == ip && losses[..n][i].count >= threshold;
          assert losses[i] == losses[..n][i];
        }
      }
    }
  }

  /** The state and reports of an interval end that counts: one `getTimeouts` round,
      then the escalation loop over its reports. */
  function CountedEnd(m: Manager, c: Settings, order: seq<string>, net: Net)
    : (Manager, seq<TimeoutTracker.Timeout>, seq<string>)
  {
    var losses := TimeoutTracker.Reported(m.timeouts, CollectUnreplied(m.timeouts.replies.vals, order));
    var (tt, attempted) := Escalate(TimeoutTracker.Advance(m.timeouts), losses, c.threshold, net);
    (m.(timeouts := tt), losses, attempted)
  }

  /** The counting part of `OnIntervalEnd`, with the flags visited in `order` (Go's map
      order): one `getTimeouts` round, then a trace for each loss whose streak reached
      the threshold, resetting the streak when the trace succeeded. Returns the new
      state, the losses reported and the addresses whose trace was attempted. */
  method CountInterval(m: Manager, c: Settings, order: seq<string>, net: Net)
    returns (r: Manager, losses: seq<TimeoutTracker.Timeout>, attempted: seq<string>)
    requires Enumerates(order, m.timeouts.replies.vals.Keys)
    ensures (r, losses, attempted) == CountedEnd(m, c, order, net)
  {
    var tt;
    tt, losses := TimeoutTracker.GetTimeouts(m.timeouts, order);
    attempted := [];
    var i := 0;
    while i < |losses|
      invariant 0 <= i <= |losses|
      invariant (tt, attempted) == Escalate(TimeoutTracker.Advance(m.timeouts), losses[..i], c.threshold, net)
    {
      assert losses[..i + 1][..i] == losses[..i];
      var t := losses[i];
      if t.count >= c.threshold {
        var hops := RunTrace(t.ip, net);
        if hops.Some? {
          tt := TimeoutTracker.ResetCount(tt, t.ip);
        }
        attempted := attempted + [t.ip];
      }
      i := i + 1;
    }
    assert losses[..i] == losses;
    r := m.(timeouts := tt);
  }

  /** `OnIntervalEnd` as written, at instant `now` on a host `offset` nanoseconds east
      of UTC: inside the downtime window of `shouldCountTimeouts` (03:00-03:05 UTC on
      the host's local date) nothing happens and the tracker is not called; otherwise
      one counting round. */
  method OnIntervalEnd(m: Manager, c: Settings, now: int, offset: int, order: seq<string>, net: Net)
    returns (r: Manager, losses: seq<TimeoutTracker.Timeout>, attempted: seq<string>)
    requires Enumerates(order, m.timeouts.replies.vals.Keys)
    ensures !ShouldCountAsWritten(now, offset) ==> r == m && losses == [] && attempted == []
    ensures ShouldCountAsWritten(now, offset) ==> (r, losses, attempted) == CountedEnd(m, c, order, net)
  {
    if !ShouldCountAsWritten(now, offset) {
      return m, [], [];
    }
    r, losses, attempted := CountInterval(m, c, order, net);
  }

  /** `OnIntervalEnd` with the window read on the UTC date: it pauses 03:00-03:05 UTC
      every day, whatever the host's zone. */
  method OnIntervalEndUtc(m: Manager, c: Settings, now: int, order: seq<string>, net: Net)
    returns (r: Manager, losses: seq<TimeoutTracker.Timeout>, attempted: seq<string>)
    requires Enumerates(order, m.timeouts.replies.vals.Keys)
    ensures !ShouldCount(now) ==> r == m && losses == [] && attempted == []
    ensures ShouldCount(now) ==> (r, losses, attempted) == CountedEnd(m, c, order, net)
  {
    if !ShouldCount(now) {
      return m, [], [];
    }
    r, losses, attempted := CountInterval(m, c, order, net);
  }

  /** A counting interval end clears every reply flag and leaves the stored traces and
      the countdown alone. */
  lemma IntervalEndClearsFlags(m: Manager, c: Settings, order: seq<string>, net: Net)
    ensures var r := CountedEnd(m, c, order, net).0;
      r.timeouts.replies.vals.Keys == m.timeouts.replies.vals.Keys
      && (forall ip :: ip in r.timeouts.replies.vals ==> !r.timeouts.replies.vals[ip])
      && r.traces == m.traces && r.countdown == m.countdown
  {
    var losses := TimeoutTracker.Reported(m.timeouts, CollectUnreplied(m.timeouts.replies.vals, order));
    EscalateContract(TimeoutTracker.Advance(m.timeouts), losses, c.threshold, net);
  }

  /** An address that replied during the interval is not reported, not traced, and
      ends with a zero streak. */
  lemma IntervalEndReplied(m: Manager, c: Settings, order: seq<string>, net: Net, ip: string)
    requires Enumerates(order, m.timeouts.replies.vals.Keys)
    requires ip in m.timeouts.replies.vals && m.timeouts.replies.vals[ip]
    ensures var (r, losses, attempted) := CountedEnd(m, c, order, net);
      TimeoutTracker.Count(r.timeouts, ip) == 0 && ip !in attempted
      && forall i :: 0 <= i < |losses| ==> losses[i].ip != ip
  {
    var tt := m.timeouts;
    var unreplied := CollectUnreplied(tt.replies.vals, order);
    var losses := TimeoutTracker.Reported(tt, unreplied);
    var (r, _, attempted) := CountedEnd(m, c, order, net);
    CollectUnrepliedMembers(tt.replies.vals, order);
    forall i | 0 <= i < |losses| ensures losses[i].ip != ip {
      assert losses[i].ip == unreplied[i];
      assert unreplied[i] in unreplied;
    }
    TimeoutTracker.ReportedExactly(tt, order);
    EscalateContract(TimeoutTracker.Advance(tt), losses, c.threshold, net);
    assert !Escalates(losses, c.threshold, net, ip);
    assert ip !in attempted;
    assert TimeoutTracker.Count(TimeoutTracker.Advance(tt), ip) == 0;
  }

  /** An address that did not reply is reported once with its streak grown by one; a
      grown streak that reached the threshold is traced, and reset only when the trace
      succeeded: skipped and failed traces leave it growing. */
  lemma IntervalEndLost(m: Manager, c: Settings, order: seq<string>, net: Net, ip: string)
    requires Enumerates(order, m.timeouts.replies.vals.Keys)
    requires ip in m.timeouts.replies.vals && !m.timeouts.replies.vals[ip]
    ensures var (r, losses, attempted) := CountedEnd(m, c, order, net);
      var streak := TimeoutTracker.Count(m.timeouts, ip) + 1;
      TimeoutTracker.Timeout(ip, streak) in losses
      && (forall i, j :: 0 <= i < j < |losses| ==> losses[i].ip != losses[j].ip)
      && (ip in attempted <==> streak >= c.threshold)
      && TimeoutTracker.Count(r.timeouts, ip) == if streak >= c.threshold && RunTrace(ip, net).Some? then 0 else streak
  {
    var tt := m.timeouts;
    var unreplied := CollectUnreplied(tt.replies.vals, order);
    var losses := TimeoutTracker.Reported(tt, unreplied);
    EscalateContract(TimeoutTracker.Advance(tt), losses, c.threshold, net);
    var streak := TimeoutTracker.Count(tt, ip) + 1;
    TimeoutTracker.ReportedExactly(tt, order);
    CollectUnrepliedMembers(tt.replies.vals, order);
    assert ip in order;
    var k :| 0 <= k < |unreplied| && unreplied[k] == ip;
    assert losses[k] == TimeoutTracker.Timeout(ip, streak);
  }
}

=== FILE: ping_loop.dfy ===
/** The probing loop of internal/network/ping_loop.go, one interval at a time: the
    checks `Run` makes before starting, the target list, how each interval numbers its
    probes, which replies the listener forwards, and how a reply's round-trip time is
    read from its payload. Goroutines and channels are left out: an interval is a pure
    step from the sequence counter and the replies that arrived to the responses
    forwarded. */
module PingLoop {
  import opened Wrappers
  import opened Timestamp
  import opened Icmp
  import Flags
  import Clock

  /** A `*net.IPAddr`, compared by identity the way `slices.Contains` compares
      pointers: two resolutions of one address are two handles. */
  type Handle = nat

  /** `AddIpAddr`: append a handle that is not in the list yet. */
  function AddIpAddr(ips: seq<Handle>, ip: Handle): (r: seq<Handle>)
    ensures ip in ips ==> r == ips
    ensures ip !in ips ==> r == ips + [ip]
  {
    if ip in ips then ips else ips + [ip]
  }

  /** The list never holds a handle twice and keeps the order handles were added in. */
  lemma AddIpAddrDistinct(ips: seq<Handle>, ip: Handle)
    requires Flags.Distinct(ips)
    ensures Flags.Distinct(AddIpAddr(ips, ip))
    ensures ip in AddIpAddr(ips, ip) && AddIpAddr(ips, ip)[..|ips|] == ips
  {
  }

  const NO_IPS_ERROR: string := "At least one IP to ping is required"
  const NO_ON_RESPONSE_ERROR: string := "OnResponse not set"
  const NO_ON_INTERVAL_END_ERROR: string := "OnIntervalEnd not set"

  /** The checks of `Run`, in order: at least one target, then `OnResponse`, then
      `OnIntervalEnd`. Only when all pass does anything start. */
  function RunCheck(ipCount: nat, hasOnResponse: bool, hasOnIntervalEnd: bool): (r: Outcome<string>)
    ensures r.Pass? <==> ipCount > 0 && hasOnResponse && hasOnIntervalEnd
    ensures ipCount == 0 ==> r == Fail(NO_IPS_ERROR)
    ensures ipCount > 0 && !hasOnResponse ==> r == Fail(NO_ON_RESPONSE_ERROR)
    ensures ipCount > 0 && hasOnResponse && !hasOnIntervalEnd ==> r == Fail(NO_ON_INTERVAL_END_ERROR)
  {
    if ipCount == 0 then Fail(NO_IPS_ERROR)
    else if !hasOnResponse then Fail(NO_ON_RESPONSE_ERROR)
    else if !hasOnIntervalEnd then Fail(NO_ON_INTERVAL_END_ERROR)
    else Pass
  }

  /** Go's conversion of an integer to `int64`: keep the low 64 bits. */
  function WrapInt64(x: int): int64 {
    ToSigned(x % TWO_64)
  }

  /** `time.Duration(interval) * time.Second` for a `uint` interval: both the
      conversion and the product wrap around at 64 bits. */
  function IntervalNanos(interval: uint64): (d: int64)
    ensures interval <= 9_223_372_036 ==> d == interval * Clock.SECOND
  {
    WrapInt64(WrapInt64(interval) * Clock.SECOND)
  }

  datatype PingLoop = PingLoop(interval: int64, ips: seq<Handle>, ospid: int)

  /** `NewPingLoop`, given the value `rand.Intn(0xffff)` drew: no targets yet, and an
      identifier below 0xffff, so that it survives the 16-bit identifier field. */
  function NewPingLoop(interval: uint64, draw: int): (p: PingLoop)
    requires 0 <= draw < 0xffff
    ensures p.ips == [] && 0 <= p.ospid < 0xffff && Wire16(p.ospid) == p.ospid
    ensures interval <= 9_223_372_036 ==> p.interval == interval * Clock.SECOND
  {
    PingLoop(IntervalNanos(interval), [], draw)
  }

  /** One probe: the target and its sequence number. */
  datatype Probe = Probe(ip: Handle, sequence: int)

  /** The probes of an interval starting at counter `start`: the i-th target gets
      `start + i + 1`. */
  function Probes(start: int, ips: seq<Handle>): (r: seq<Probe>)
    ensures |r| == |ips|
    ensures forall i :: 0 <= i < |r| ==> r[i] == Probe(ips[i], start + i + 1)
  {
    seq(|ips|, i requires 0 <= i < |ips| => Probe(ips[i], start + i + 1))
  }

  /** The sending loop of `startLoop` for one interval. `sendOk[i]` says whether the
      i-th `Ping` succeeded; a failed send is logged and skipped, but its sequence
      number is used up all the same. Returns the probes that went out and the counter
      at the end of the interval. */
  method SendInterval(start: int, ips: seq<Handle>, sendOk: seq<bool>) returns (sent: seq<Probe>, next: int)
    requires |sendOk| == |ips|
    ensures next == start + |ips|
    ensures forall p :: p in sent <==> exists i :: 0 <= i < |ips| && sendOk[i] && p == Probes(start, ips)[i]
    ensures forall j, k :: 0 <= j < k < |sent| ==> sent[j].sequence < sent[k].sequence
  {
    var sequence := start;
    sent := [];
    var i := 0;
    while i < |ips|
      invariant 0 <= i <= |ips|
      invariant sequence == start + i
      invariant forall p :: p in sent <==> exists k :: 0 <= k < i && sendOk[k] && p == Probes(start, ips)[k]
      invariant forall j, k :: 0 <= j < k < |sent| ==> sent[j].sequence < sent[k].sequence
      invariant forall p :: p in sent ==> p.sequence <= sequence
    {
      sequence := sequence + 1;
      var probe := Probe(ips[i], sequence);
      assert probe == Probes(start, ips)[i];
      if sendOk[i] {
        sent := sent + [probe];
      }
      i := i + 1;
    }
    next := sequence;
  }

  /** The acceptance window of an interval: `listenForMessage(seq, seq+len(ips))`. */
  datatype Window = Window(min: int, max: int)

  function IntervalWindow(start: int, ips: seq<Handle>): (w: Window)
    ensures forall p :: p in Probes(start, ips) ==> w.min < p.sequence <= w.max
  {
    Window(start, start + |ips|)
  }

  /** A sequence number lies in the window of an interval exactly when some probe of
      that interval carries it. */
  lemma IntervalWindowExact(start: int, ips: seq<Handle>, q: int)
    ensures var w := IntervalWindow(start, ips);
      w.min < q <= w.max <==> exists i :: 0 <= i < |ips| && Probes(start, ips)[i].sequence == q
  {
    var w := IntervalWindow(start, ips);
    if w.min < q <= w.max {
      var i := q - start - 1;
      assert Probes(start, ips)[i].sequence == q;
    }
  }

  /** The counter at the start of interval `k` (counting from 0): it starts at 0 and
      every interval advances it by the number of targets. */
  function CounterAt(k: nat, n: nat): int
    decreases k
  {
    if k == 0 then 0 else CounterAt(k - 1, n) + n
  }

  lemma {:induction false} CounterAtClosed(k: nat, n: nat)
    ensures CounterAt(k, n) == k * n
    decreases k
  {
    if k > 0 {
      CounterAtClosed(k - 1, n);
    }
  }

  /** The windows of two different intervals share no sequence number. */
  lemma WindowsDisjoint(j: nat, k: nat, ips: seq<Handle>, s: int)
    requires j < k
    requires var w := IntervalWindow(CounterAt(j, |ips|), ips); w.min < s <= w.max
    ensures var w := IntervalWindow(CounterAt(k, |ips|), ips); !(w.min < s <= w.max)
  {
    CounterAtClosed(j, |ips|);
    CounterAtClosed(k, |ips|);
    MulMonotone(j + 1, k, |ips|);
  }

  lemma MulMonotone(a: nat, b: nat, n: nat)
    requires a <= b
    ensures a * n <= b * n
  {
    assert b * n == a * n + (b - a) * n;
  }

  /** The filter of `listenForMessage` as written: an Echo Reply whose identifier is
      the loop's and whose sequence number lies in the window. */
  predicate Accept(m: Message, ospid: int, w: Window) {
    m.EchoReply? && m.body.id == ospid && w.min < m.body.sequence <= w.max
  }

  /** The 16-bit sequence number `wire` belongs to some probe of the window. */
  predicate InWireWindow(wire: int, w: Window) {
    w.max - w.min >= 0x1_0000 || (w.min < w.max && (wire - (w.min + 1)) % 0x1_0000 < w.max - w.min)
  }

  /** The filter comparing wire values: the identifier is the low 16 bits of the
      loop's, and the sequence number on the wire is the low 16 bits of one of the
      window's sequence numbers. */
  predicate AcceptWire(m: Message, ospid: int, w: Window) {
    m.EchoReply? && m.body.id == Wire16(ospid) && InWireWindow(m.body.sequence, w)
  }

  /** As written, once the counter reaches 65535 no reply is ever accepted again: every
      sequence number read off the wire is below 65536. For example the reply to the
      probe numbered 65536, in the window (65535, 65536], carries 0. */
  lemma AcceptBlindAfterWrap(m: Message, ospid: int, w: Window)
    requires m.EchoReply? && 0 <= m.body.sequence < 0x1_0000
    requires w.min >= 0xffff
    ensures !Accept(m, ospid, w)
  {
  }

  lemma AcceptRejectsOwnReplyAt65536(ospid: int, data: seq<byte>, peer: string)
    requires 0 <= ospid < 0xffff
    ensures var reply := ReplyTo(Echo(ospid, 0x1_0000, data), peer);
      reply.body.sequence == 0 && !Accept(reply, ospid, Window(0xffff, 0x1_0000))
  {
  }

  /** The corrected filter accepts the reply to every probe of the window, and only
      replies to probes of the window. */
  lemma AcceptWireExactly(ospid: int, w: Window, s: int, data: seq<byte>, peer: string)
    requires w.min < s <= w.max
    ensures AcceptWire(ReplyTo(Echo(ospid, s, data), peer), ospid, w)
  {
    var d := s - (w.min + 1);
    if w.max - w.min < 0x1_0000 {
      assert 0 <= d < 0x1_0000;
      assert (Wire16(s) - (w.min + 1)) % 0x1_0000 == d % 0x1_0000 by {
        assert Wire16(s) - (w.min + 1) == d - (s / 0x1_0000) * 0x1_0000;
      }
    }
  }

  lemma AcceptWireOnlyWindow(m: Message, ospid: int, w: Window)
    requires AcceptWire(m, ospid, w)
    ensures exists s :: w.min < s <= w.max && Wire16(s) == m.body.sequence % 0x1_0000
  {
    var s := w.min + 1 + (m.body.sequence - (w.min + 1)) % 0x1_0000;
    if w.max - w.min >= 0x1_0000 {
      assert w.min < s <= w.max;
    }
    assert (s - m.body.sequence) % 0x1_0000 == 0 by {
      var q := (m.body.sequence - (w.min + 1)) / 0x1_0000;
      assert s - m.body.sequence == -q * 0x1_0000;
    }
    assert Wire16(s) == m.body.sequence % 0x1_0000;
  }

  /** Before the counter wraps, both filters agree on every reply read off the wire. */
  lemma AcceptAgreesBeforeWrap(m: Message, ospid: int, w: Window)
    requires 0 <= ospid < 0x1_0000
    requires 0 <= w.min <= w.max < 0x1_0000
    requires m.EchoReply? ==> 0 <= m.body.sequence < 0x1_0000
    ensures AcceptWire(m, ospid, w) <==> Accept(m, ospid, w)
  {
    if m.EchoReply? && w.min < w.max {
      var d := m.body.sequence - (w.min + 1);
      assert -0x1_0000 < d < 0x1_0000;
      if d < 0 {
        assert d % 0x1_0000 == d + 0x1_0000;
      }
    }
  }

  /** The `time.Time.Sub` of two instants: the difference, saturated at the `int64`
      range. */
  function SaturatingSub(a: int64, b: int64): (d: int64)
    ensures -TWO_63 <= a - b < TWO_63 ==> d == a - b
    ensures a - b >= TWO_63 ==> d == TWO_63 - 1
    ensures a - b < -TWO_63 ==> d == -TWO_63
  {
    var d := a - b;
    if d >= TWO_63 then TWO_63 - 1 else if d < -TWO_63 then -TWO_63 else d
  }

  /** `getDuration`: fewer than 8 bytes of data is an error with duration 0; otherwise
      the time since the instant in the first 8 bytes. */
  function GetDuration(data: seq<byte>, now: int64): (r: (int64, bool))
    ensures |data| < 8 ==> r == (0, true)
    ensures |data| >= 8 ==> !r.1 && r.0 == SaturatingSub(now, BinaryToTime(data[..8]))
  {
    if |data| < 8 then (0, true) else (SaturatingSub(now, BinaryToTime(data[..8])), false)
  }

  /** A reply that carries the timestamp of its probe yields the elapsed time, whatever
      follows the first 8 bytes. */
  lemma GetDurationOfProbe(sentAt: int64, tail: seq<byte>, now: int64)
    requires sentAt <= now && now - sentAt < TWO_63
    ensures GetDuration(TimeToBinary(sentAt) + tail, now) == (now - sentAt, false)
  {
    var data := TimeToBinary(sentAt) + tail;
    assert data[..8] == TimeToBinary(sentAt);
    TimeRoundTrip(sentAt);
  }

  /** A received message and the instant it was read. */
  datatype Arrival = Arrival(msg: Message, at: int64)

  /** `PingLoopResponse`. */
  datatype Response = Response(body: Echo, peer: string, duration: int64)

  /** The response forwarded for an accepted Echo Reply: a failed duration is logged
      and the reply forwarded anyway, with duration 0. */
  function Respond(a: Arrival): Response
    requires a.msg.EchoReply?
  {
    Response(a.msg.body, a.msg.peer, GetDuration(a.msg.body.data, a.at).0)
  }

  /** Which filter the listener applies: `AsWritten` is `Accept`, the comparison of
      `listenForMessage`; `WireValues` is `AcceptWire`. */
  datatype Filter = AsWritten | WireValues

  predicate Passes(f: Filter, m: Message, ospid: int, w: Window) {
    match f
    case AsWritten => Accept(m, ospid, w)
    case WireValues => AcceptWire(m, ospid, w)
  }

  /** `listenForMessage`: forward, in arrival order, every reply the filter accepts. */
  function Listen(f: Filter, arrivals: seq<Arrival>, ospid: int, w: Window): seq<Response> {
    if |arrivals| == 0 then []
    else
      (if Passes(f, arrivals[0].msg, ospid, w) then [Respond(arrivals[0])] else [])
      + Listen(f, arrivals[1..], ospid, w)
  }

  /** Under either filter, a response is forwarded exactly when some accepted arrival
      produced it. */
  lemma {:induction false} ListenForwardsExactly(f: Filter, arrivals: seq<Arrival>, ospid: int, w: Window, r: Response)
    ensures r in Listen(f, arrivals, ospid, w) <==>
      exists i :: 0 <= i < |arrivals| && Passes(f, arrivals[i].msg, ospid, w) && r == Respond(arrivals[i])
  {
    if |arrivals| > 0 {
      ListenForwardsExactly(f, arrivals[1..], ospid, w, r);
      if exists i :: 0 <= i < |arrivals| && Passes(f, arrivals[i].msg, ospid, w) && r == Respond(arrivals[i]) {
        var i :| 0 <= i < |arrivals| && Passes(f, arrivals[i].msg, ospid, w) && r == Respond(arrivals[i]);
        if i > 0 {
          assert arrivals[1..][i - 1] == arrivals[i];
        }
      }
      if r in Listen(f, arrivals[1..], ospid, w) {
        var i :| 0 <= i < |arrivals[1..]| && Passes(f, arrivals[1..][i].msg, ospid, w) && r == Respond(arrivals[1..][i]);
        assert arrivals[i + 1] == arrivals[1..][i];
      }
    }
  }

  /** Under either filter, an accepted reply whose payload is too short is still
      forwarded, with duration 0. */
  lemma ShortPayloadForwarded(f: Filter, a: Arrival, ospid: int, w: Window)
    requires Passes(f, a.msg, ospid, w) && |a.msg.body.data| < 8
    ensures Response(a.msg.body, a.msg.peer, 0) in Listen(f, [a], ospid, w)
  {
  }

  /** As written, the listener forwards nothing once the counter has reached 65535,
      whatever arrives. */
  lemma {:induction false} ListenSilentAfterWrap(arrivals: seq<Arrival>, ospid: int, w: Window)
    requires forall i :: 0 <= i < |arrivals| ==> arrivals[i].msg.EchoReply? ==> 0 <= arrivals[i].msg.body.sequence < 0x1_0000
    requires w.min >= 0xffff
    ensures Listen(AsWritten, arrivals, ospid, w) == []
  {
    if |arrivals| > 0 {
      if arrivals[0].msg.EchoReply? {
        AcceptBlindAfterWrap(arrivals[0].msg, ospid, w);
      }
      ListenSilentAfterWrap(arrivals[1..], ospid, w);
    }
  }

  /** Before the counter wraps, both filters forward the same responses. */
  lemma {:induction false} ListenAgreesBeforeWrap(arrivals: seq<Arrival>, ospid: int, w: Window)
    requires 0 <= ospid < 0x1_0000
    requires 0 <= w.min <= w.max < 0x1_0000
    requires forall i :: 0 <= i < |arrivals| ==> arrivals[i].msg.EchoReply? ==> 0 <= arrivals[i].msg.body.sequence < 0x1_0000
    ensures Listen(WireValues, arrivals, ospid, w) == Listen(AsWritten, arrivals, ospid, w)
  {
    if |arrivals| > 0 {
      AcceptAgreesBeforeWrap(arrivals[0].msg, ospid, w);
      ListenAgreesBeforeWrap(arrivals[1..], ospid, w);
    }
  }
}

=== FILE: ping_tracker.dfy ===
/** The `PingTracker` of internal/monitoring/ping_tracker.go: a reply flag per address
    that has ever replied, and the list of silent addresses reported by the last round,
    sorted in descending byte order. */
module PingTracker {
  import opened Strings
  import opened Flags

  datatype PingTracker = PingTracker(replies: Replies, timeouts: seq<string>, prevTimeouts: seq<string>)

  /** `newPingTracker`: nothing tracked. */
  const Empty: PingTracker := PingTracker(map[], [], [])

  /** Each element is greater than every later one. */
  predicate StrictlyDescending(s: seq<string>) {
    forall i, j :: 0 <= i < j < |s| ==> Less(s[j], s[i])
  }

  /** `replyReceived`: the address is tracked from now on and flagged for this round. */
  function ReplyReceived(pt: PingTracker, ip: string): (r: PingTracker)
    ensures r.replies.Keys == pt.replies.Keys + {ip} && r.replies[ip]
    ensures forall other :: other in pt.replies && other != ip ==> r.replies[other] == pt.replies[other]
    ensures r.timeouts == pt.timeouts && r.prevTimeouts == pt.prevTimeouts
  {
    pt.(replies := pt.replies[ip := true])
  }

  /** Insert `x` into a descending list at its place. */
  function Insert(x: string, s: seq<string>): seq<string> {
    if |s| == 0 then [x]
    else if Less(s[0], x) then [x] + s
    else [s[0]] + Insert(x, s[1..])
  }

  lemma {:induction false} InsertSorted(x: string, s: seq<string>)
    requires StrictlyDescending(s) && x !in s
    ensures |Insert(x, s)| == |s| + 1
    ensures forall y :: y in Insert(x, s) <==> y == x || y in s
    ensures StrictlyDescending(Insert(x, s))
  {
    if |s| > 0 {
      if Less(s[0], x) {
        var r := [x] + s;
        forall i, j | 0 <= i < j < |r| ensures Less(r[j], r[i]) {
          if i == 0 && j > 1 {
            LessTransitive(s[j - 1], s[0], x);
          }
        }
      } else {
        LessTotal(x, s[0]);
        InsertSorted(x, s[1..]);
        var rest := Insert(x, s[1..]);
        var r := [s[0]] + rest;
        forall i, j | 0 <= i < j < |r| ensures Less(r[j], r[i]) {
          if i == 0 {
            assert r[j] in rest;
            if r[j] != x {
              var k :| 0 <= k < |s[1..]| && s[1..][k] == r[j];
              assert s[k + 1] == r[j];
            }
          } else {
            assert r[i] == rest[i - 1] && r[j] == rest[j - 1];
          }
        }
      }
    }
  }

  /** Go's `sort.Slice` with `a > b`. The keys are distinct, so every correct sort gives
      this same list (see `DescendingUnique`). */
  function SortDescending(s: seq<string>): seq<string> {
    if |s| == 0 then [] else Insert(s[0], SortDescending(s[1..]))
  }

  lemma {:induction false} SortDescendingSorts(s: seq<string>)
    requires Distinct(s)
    ensures |SortDescending(s)| == |s|
    ensures forall y :: y in SortDescending(s) <==> y in s
    ensures StrictlyDescending(SortDescending(s))
  {
    if |s| > 0 {
      assert Distinct(s[1..]) by {
        forall i, j | 0 <= i < j < |s[1..]| ensures s[1..][i] != s[1..][j] {
          assert s[1..][i] == s[i + 1] && s[1..][j] == s[j + 1];
        }
      }
      SortDescendingSorts(s[1..]);
      assert s[0] !in s[1..];
      InsertSorted(s[0], SortDescending(s[1..]));
    }
  }

  /** Two strictly descending lists with the same elements are the same list. */
  lemma {:induction false} DescendingUnique(a: seq<string>, b: seq<string>)
    requires StrictlyDescending(a) && StrictlyDescending(b)
    requires forall y :: y in a <==> y in b
    ensures a == b
  {
    assert |a| > 0 ==> a[0] in b;
    assert |b| > 0 ==> b[0] in a;
    if |a| > 0 && |b| > 0 {
      if a[0] != b[0] {
        assert a[0] in b;
        var k :| 0 <= k < |b| && b[k] == a[0];
        assert b[0] in a;
        var m :| 0 <= m < |a| && a[m] == b[0];
        assert Less(a[0], b[0]);
        LessAsymmetric(a[0], b[0]);
        assert false;
      }
      assert forall y :: y in a[1..] <==> y in b[1..] by {
        forall y ensures y in a[1..] <==> y in b[1..] {
          if y in a[1..] {
            var k :| 0 <= k < |a[1..]| && a[1..][k] == y;
            assert Less(a[k + 1], a[0]);
            LessIrreflexive(y);
            assert y in b && y != b[0];
            var m :| 0 <= m < |b| && b[m] == y;
          }
          if y in b[1..] {
            var k :| 0 <= k < |b[1..]| && b[1..][k] == y;
            assert Less(b[k + 1], b[0]);
            LessIrreflexive(y);
            assert y in a && y != a[0];
            var m :| 0 <= m < |a| && a[m] == y;
          }
        }
      }
      DescendingUnique(a[1..], b[1..]);
      assert a == [a[0]] + a[1..] && b == [b[0]] + b[1..];
    }
  }

  /** `getTimeouts`: the addresses without a reply, each once, in strictly descending
      order; the flags are left as they are and the list is remembered as
      `prevTimeouts`. `order` is the order Go happens to visit the map in. */
  function GetTimeouts(pt: PingTracker, order: seq<string>): (r: (PingTracker, seq<string>))
    requires Enumerates(order, pt.replies.Keys)
    ensures StrictlyDescending(r.1)
    ensures forall ip :: ip in r.1 <==> ip in Unreplied(pt.replies)
    ensures r.0.replies == pt.replies && r.0.timeouts == pt.timeouts && r.0.prevTimeouts == r.1
  {
    var collected := CollectUnreplied(pt.replies, order);
    CollectUnrepliedExactly(pt.replies, order);
    SortDescendingSorts(collected);
    var timeouts := SortDescending(collected);
    (pt.(prevTimeouts := timeouts), timeouts)
  }

  /** The report does not depend on the order Go happens to visit the map in. */
  lemma GetTimeoutsOrderIndependent(pt: PingTracker, order1: seq<string>, order2: seq<string>)
    requires Enumerates(order1, pt.replies.Keys) && Enumerates(order2, pt.replies.Keys)
    ensures GetTimeouts(pt, order1) == GetTimeouts(pt, order2)
  {
    DescendingUnique(GetTimeouts(pt, order1).1, GetTimeouts(pt, order2).1);
  }

  /** An address that never replied is not tracked, so it is never reported. */
  lemma UntrackedNeverReported(pt: PingTracker, order: seq<string>, ip: string)
    requires Enumerates(order, pt.replies.Keys) && ip !in pt.replies
    ensures ip !in GetTimeouts(pt, order).1
  {
  }

  /** `reset`: every tracked flag false, no address dropped, both lists emptied. */
  function Reset(pt: PingTracker): (r: PingTracker)
    ensures r.replies.Keys == pt.replies.Keys
    ensures Unreplied(r.replies) == pt.replies.Keys
    ensures r.timeouts == [] && r.prevTimeouts == []
  {
    ClearAllUnreplied(pt.replies);
    PingTracker(ClearAll(pt.replies), [], [])
  }
}

=== FILE: pinger.dfy ===
/** The `replied` bookkeeping of `Pinger.configure` in internal/monitoring/pinger.go. It
    is the `ReplyTracker` logic, plus one call of the optional timeout handler `th` per
    silent address. Metrics and logging are left out. */
module Pinger {
  import opened Flags
  import ReplyTracker

  /** `OnRecv`: the same rule as the utils copy. */
  function OnRecv(replied: Replies, ip: string, rtt: int): (r: Replies)
    ensures rtt > 0 ==> r.Keys == replied.Keys + {ip} && r[ip]
    ensures rtt > 0 ==> forall other :: other in replied && other != ip ==> r[other] == replied[other]
    ensures rtt <= 0 ==> r == replied
  {
    ReplyTracker.OnRecv(replied, ip, rtt)
  }

  /** `OnIdle`: the new flags, the silent addresses in visiting order, and how many
      times `th.OnTimeout` is called: once per silent address when a handler is set,
      never otherwise. */
  function OnIdle(replied: Replies, order: seq<string>, hasHandler: bool): (r: (Replies, seq<string>, nat))
    requires Enumerates(order, replied.Keys)
    ensures Distinct(r.1) && forall ip :: ip in r.1 <==> ip in Unreplied(replied)
    ensures r.0.Keys == replied.Keys && Unreplied(r.0) == replied.Keys
    ensures r.2 == if hasHandler then |Unreplied(replied)| else 0
  {
    var (next, silent) := ReplyTracker.OnIdle(replied, order);
    DistinctCardinality(silent, Unreplied(replied));
    (next, silent, if hasHandler then |silent| else 0)
  }
}

=== FILE: reply_tracker.dfy ===
/** The `ReplyTracker` bookkeeping of `PingAndReport` in internal/utils/pinger.go: the
    fastping `OnRecv` callback flags an address that answered with a positive round-trip
    time, and the `OnIdle` callback at the end of each round reports the silent ones and
    clears every flag. Durations are integer nanoseconds; metrics and logging are left
    out. */
module ReplyTracker {
  import opened Flags

  /** `OnRecv`: a positive round-trip time flags the address (tracking it from then
      on); a zero or negative one, which fastping delivers after a timeout, is ignored. */
  function OnRecv(replied: Replies, ip: string, rtt: int): (r: Replies)
    ensures rtt > 0 ==> r.Keys == replied.Keys + {ip} && r[ip]
    ensures rtt > 0 ==> forall other :: other in replied && other != ip ==> r[other] == replied[other]
    ensures rtt <= 0 ==> r == replied
  {
    if rtt > 0 then replied[ip := true] else replied
  }

  /** `OnIdle`: visiting the flags in Go's map order `order`, report each silent
      address, then leave every tracked flag false. */
  function OnIdle(replied: Replies, order: seq<string>): (r: (Replies, seq<string>))
    requires Enumerates(order, replied.Keys)
    ensures Distinct(r.1) && forall ip :: ip in r.1 <==> ip in Unreplied(replied)
    ensures r.0.Keys == replied.Keys && Unreplied(r.0) == replied.Keys
  {
    CollectUnrepliedExactly(replied, order);
    ClearAllUnreplied(replied);
    (ClearAll(replied), CollectUnreplied(replied, order))
  }

  /** What reaches the callbacks: a reply with its round-trip time, or the end of a
      round. */
  datatype Event = Recv(ip: string, rtt: int) | Idle

  /** The flags after a sequence of callbacks; the report of `OnIdle` does not affect
      them, whatever order the map is visited in. */
  function Run(replied: Replies, events: seq<Event>): Replies
    decreases |events|
  {
    if |events| == 0 then replied
    else
      var next := match events[0]
        case Recv(ip, rtt) => OnRecv(replied, ip, rtt)
        case Idle => ClearAll(replied);
      Run(next, events[1..])
  }

  /** The addresses that replied with a positive round-trip time somewhere in
      `events`. */
  function Answered(events: seq<Event>): set<string> {
    set i | 0 <= i < |events| && events[i].Recv? && events[i].rtt > 0 :: events[i].ip
  }

  /** An address is tracked only once it has replied with a positive round-trip time,
      so one that never did is never reported. */
  lemma {:induction false} TrackedOnlyAfterReply(replied: Replies, events: seq<Event>)
    ensures Run(replied, events).Keys == replied.Keys + Answered(events)
    decreases |events|
  {
    if |events| > 0 {
      var next := match events[0]
        case Recv(ip, rtt) => OnRecv(replied, ip, rtt)
        case Idle => ClearAll(replied);
      TrackedOnlyAfterReply(next, events[1..]);
      var first: set<string> := if events[0].Recv? && events[0].rtt > 0 then {events[0].ip} else {};
      assert next.Keys == replied.Keys + first;
      assert Answered(events) == first + Answered(events[1..]) by {
        forall k | k in Answered(events) ensures k in first + Answered(events[1..]) {
          var i :| 0 <= i < |events| && events[i].Recv? && events[i].rtt > 0 && events[i].ip == k;
          if i > 0 {
            assert events[1..][i - 1] == events[i];
          }
        }
        forall k | k in Answered(events[1..]) ensures k in Answered(events) {
          var i :| 0 <= i < |events[1..]| && events[1..][i].Recv? && events[1..][i].rtt > 0 && events[1..][i].ip == k;
          assert events[i + 1] == events[1..][i];
        }
      }
    } else {
      assert Answered(events) == {};
    }
  }

  /** Starting from the empty map, a round never reports an address that has not
      answered with a positive round-trip time. */
  lemma NeverAnsweredNeverReported(events: seq<Event>, order: seq<string>, ip: string)
    requires Enumerates(order, Run(map[], events).Keys)
    requires ip !in Answered(events)
    ensures ip !in OnIdle(Run(map[], events), order).1
  {
    TrackedOnlyAfterReply(map[], events);
  }
}

=== FILE: strings.dfy ===
/** The parts of Go's `strings` package the monitor relies on: `Split` on a one-character
    separator, `TrimSpace` (restricted to ASCII white space), `HasPrefix`, and the
    bytewise ordering that `a > b` gives on strings. The functions carry no contracts of
    their own; what they promise is stated by the lemmas after each of them. */
module Strings {

  /** The ASCII white space `strings.TrimSpace` removes: tab, line feed, vertical tab,
      form feed, carriage return and space. */
  predicate IsSpace(c: char) {
    c as int in {9, 10, 11, 12, 13, 32}
  }

  predicate AllSpace(s: string) {
    forall i :: 0 <= i < |s| ==> IsSpace(s[i])
  }

  /** Neither end of `s` is white space. */
  predicate Trimmed(s: string) {
    |s| > 0 ==> !IsSpace(s[0]) && !IsSpace(s[|s| - 1])
  }

  function Count(s: string, c: char): nat {
    if |s| == 0 then 0 else (if s[0] == c then 1 else 0) + Count(s[1..], c)
  }

  /** `strings.Split(s, sep)`: the pieces between separators; the empty string gives one
      empty piece, and a trailing separator gives a trailing empty piece. */
  function Split(s: string, sep: char): seq<string> {
    if |s| == 0 then [""]
    else
      var rest := Split(s[1..], sep);
      if s[0] == sep then [""] + rest
      else [[s[0]] + rest[0]] + rest[1..]
  }

  /** There is one piece more than there are separators, and no piece holds one. */
  lemma {:induction false} SplitShape(s: string, sep: char)
    ensures |Split(s, sep)| == Count(s, sep) + 1
    ensures forall i :: 0 <= i < |Split(s, sep)| ==> sep !in Split(s, sep)[i]
  {
    if |s| > 0 {
      SplitShape(s[1..], sep);
      var rest := Split(s[1..], sep);
      if s[0] != sep {
        assert [s[0]] + rest[0] == [s[0]] + rest[0];
        assert sep !in [s[0]] + rest[0];
      }
    }
  }

  /** Every character of every piece comes from the input. */
  lemma {:induction false} SplitPiecesFromInput(s: string, sep: char, i: nat, j: nat)
    requires i < |Split(s, sep)| && j < |Split(s, sep)[i]|
    ensures Split(s, sep)[i][j] in s
  {
    if |s| > 0 {
      if s[0] == sep {
        SplitPiecesFromInput(s[1..], sep, i - 1, j);
      } else if i > 0 {
        SplitPiecesFromInput(s[1..], sep, i, j);
      } else if j > 0 {
        SplitPiecesFromInput(s[1..], sep, 0, j - 1);
      }
    }
  }

  /** `strings.Join(parts, sep)`, the inverse of `Split`. */
  function Join(parts: seq<string>, sep: char): string
    requires |parts| > 0
  {
    if |parts| == 1 then parts[0] else parts[0] + [sep] + Join(parts[1..], sep)
  }

  /** Split loses nothing: joining the pieces with the separator restores the input. */
  lemma {:induction false} SplitJoin(s: string, sep: char)
    ensures |Split(s, sep)| > 0 && Join(Split(s, sep), sep) == s
  {
    if |s| > 0 {
      var rest := Split(s[1..], sep);
      SplitJoin(s[1..], sep);
      if s[0] == sep {
        assert Split(s, sep)[1..] == rest;
      } else {
        var r := Split(s, sep);
        if |rest| == 1 {
          assert r == [[s[0]] + rest[0]];
        } else {
          assert r[1..] == rest[1..];
          assert Join(rest, sep) == rest[0] + [sep] + Join(rest[1..], sep);
        }
      }
    }
  }

  /** A string without the separator is one piece. */
  lemma {:induction false} SplitWithoutSeparator(s: string, sep: char)
    requires sep !in s
    ensures Split(s, sep) == [s]
  {
    if |s| > 0 {
      SplitWithoutSeparator(s[1..], sep);
      assert s == [s[0]] + s[1..];
    }
  }

  /** The first separator ends the first piece. */
  lemma {:induction false} SplitAtSeparator(a: string, sep: char, b: string)
    requires sep !in a
    ensures Split(a + [sep] + b, sep) == [a] + Split(b, sep)
  {
    if |a| == 0 {
      assert a + [sep] + b == [sep] + b;
      assert ([sep] + b)[1..] == b;
    } else {
      var s := a + [sep] + b;
      assert s[1..] == a[1..] + [sep] + b;
      SplitAtSeparator(a[1..], sep, b);
      assert [s[0]] + a[1..] == a;
    }
  }

  /** Splitting separator-free pieces joined by the separator gives the pieces back. */
  lemma {:induction false} JoinSplit(parts: seq<string>, sep: char)
    requires |parts| > 0
    requires forall i :: 0 <= i < |parts| ==> sep !in parts[i]
    ensures Split(Join(parts, sep), sep) == parts
  {
    if |parts| == 1 {
      SplitWithoutSeparator(parts[0], sep);
    } else {
      JoinSplit(parts[1..], sep);
      SplitAtSeparator(parts[0], sep, Join(parts[1..], sep));
    }
  }

  function TrimLeft(s: string): string {
    if |s| > 0 && IsSpace(s[0]) then TrimLeft(s[1..]) else s
  }

  function TrimRight(s: string): string {
    if |s| > 0 && IsSpace(s[|s| - 1]) then TrimRight(s[..|s| - 1]) else s
  }

  /** TrimLeft drops a white-space prefix and keeps the rest. */
  lemma {:induction false} TrimLeftShape(s: string)
    ensures |TrimLeft(s)| <= |s| && TrimLeft(s) == s[|s| - |TrimLeft(s)|..]
    ensures AllSpace(s[..|s| - |TrimLeft(s)|])
    ensures |TrimLeft(s)| > 0 ==> !IsSpace(TrimLeft(s)[0])
  {
    if |s| > 0 && IsSpace(s[0]) {
      TrimLeftShape(s[1..]);
      var k := |s| - |TrimLeft(s)|;
      assert s[..k] == [s[0]] + s[1..][..k - 1];
    }
  }

  /** TrimRight drops a white-space suffix and keeps the rest. */
  lemma {:induction false} TrimRightShape(s: string)
    ensures |TrimRight(s)| <= |s| && TrimRight(s) == s[..|TrimRight(s)|]
    ensures AllSpace(s[|TrimRight(s)|..])
    ensures |TrimRight(s)| > 0 ==> !IsSpace(TrimRight(s)[|TrimRight(s)| - 1])
  {
    if |s| > 0 && IsSpace(s[|s| - 1]) {
      TrimRightShape(s[..|s| - 1]);
      var k := |TrimRight(s)|;
      assert s[k..] == s[..|s| - 1][k..] + [s[|s| - 1]];
    }
  }

  /** `strings.TrimSpace` on ASCII white space. */
  function TrimSpace(s: string): string {
    TrimRight(TrimLeft(s))
  }

  /** Trimming leaves no white space at either end, is empty exactly when the input is
      all white space, and keeps a contiguous part of the input. */
  lemma TrimSpaceContract(s: string)
    ensures Trimmed(TrimSpace(s))
    ensures |TrimSpace(s)| == 0 <==> AllSpace(s)
    ensures forall i :: 0 <= i < |TrimSpace(s)| ==> TrimSpace(s)[i] in s
  {
    var l := TrimLeft(s);
    var r := TrimRight(l);
    TrimLeftShape(s);
    TrimRightShape(l);
    if |r| == 0 {
      assert s == s[..|s| - |l|] + l;
      assert l == l[..0] + l[0..];
    } else {
      assert s[|s| - |l|] == l[0];
      assert r[0] == l[0];
      forall i | 0 <= i < |r| ensures r[i] in s {
        assert r[i] == s[|s| - |l| + i];
      }
    }
  }

  /** Trimming a trimmed string changes nothing. */
  lemma TrimSpaceFixesTrimmed(s: string)
    requires Trimmed(s)
    ensures TrimSpace(s) == s
  {
  }

  /** Trimming is idempotent. */
  lemma TrimSpaceIdempotent(s: string)
    ensures TrimSpace(TrimSpace(s)) == TrimSpace(s)
  {
    TrimSpaceContract(s);
    TrimSpaceFixesTrimmed(TrimSpace(s));
  }

  lemma {:induction false} TrimLeftPadded(pre: string, rest: string)
    requires AllSpace(pre) && |rest| > 0 && !IsSpace(rest[0])
    ensures TrimLeft(pre + rest) == rest
  {
    if |pre| > 0 {
      assert (pre + rest)[1..] == pre[1..] + rest;
      TrimLeftPadded(pre[1..], rest);
    }
  }

  lemma {:induction false} TrimRightPadded(rest: string, post: string)
    requires AllSpace(post) && |rest| > 0 && !IsSpace(rest[|rest| - 1])
    ensures TrimRight(rest + post) == rest
  {
    if |post| > 0 {
      assert (rest + post)[..|rest + post| - 1] == rest + post[..|post| - 1];
      TrimRightPadded(rest, post[..|post| - 1]);
    } else {
      assert rest + post == rest;
    }
  }

  /** White space around a trimmed, non-empty text is exactly what trimming removes. */
  lemma TrimSpacePadded(pre: string, t: string, post: string)
    requires AllSpace(pre) && AllSpace(post) && t != "" && Trimmed(t)
    ensures TrimSpace(pre + t + post) == t
  {
    assert pre + t + post == pre + (t + post);
    TrimLeftPadded(pre, t + post);
    TrimRightPadded(t, post);
  }

  /** `strings.HasPrefix`. */
  predicate HasPrefix(s: string, prefix: string) {
    |prefix| <= |s| && s[..|prefix|] == prefix
  }

  /** Go's `a < b` on strings: bytewise lexicographic order. On UTF-8 text this is the
      lexicographic order of code points, which is what is compared here. */
  predicate Less(a: string, b: string) {
    if |a| == 0 then |b| > 0
    else if |b| == 0 then false
    else if a[0] != b[0] then a[0] < b[0]
    else Less(a[1..], b[1..])
  }

  lemma {:induction false} LessIrreflexive(a: string)
    ensures !Less(a, a)
  {
    if |a| > 0 {
      LessIrreflexive(a[1..]);
    }
  }

  lemma {:induction false} LessTransitive(a: string, b: string, c: string)
    requires Less(a, b) && Less(b, c)
    ensures Less(a, c)
  {
    if |a| > 0 && |b| > 0 && |c| > 0 && a[0] == b[0] && b[0] == c[0] {
      LessTransitive(a[1..], b[1..], c[1..]);
    }
  }

  /** Distinct strings are always ordered one way or the other. */
  lemma {:induction false} LessTotal(a: string, b: string)
    requires a != b
    ensures Less(a, b) || Less(b, a)
  {
    if |a| > 0 && |b| > 0 && a[0] == b[0] {
      assert a == [a[0]] + a[1..] && b == [b[0]] + b[1..];
      LessTotal(a[1..], b[1..]);
    }
  }

  lemma {:induction false} LessAsymmetric(a: string, b: string)
    requires Less(a, b)
    ensures !Less(b, a)
  {
    if |a| > 0 && |b| > 0 && a[0] == b[0] {
      LessAsymmetric(a[1..], b[1..]);
    }
  }
}

=== FILE: timeout_tracker.dfy ===
/** The consecutive-loss counter of internal/monitoring/timeout_tracker.go: one reply
    flag and one streak count per address, both kept in `Tracker`s. */
module TimeoutTracker {
  import opened Flags
  import Tracker

  datatype TimeoutTracker = TimeoutTracker(replies: Tracker.Tracker<bool>, counts: Tracker.Tracker<int>)

  /** One reported loss: the address and the length of its current streak. */
  datatype Timeout = Timeout(ip: string, count: int)

  /** The streak count of `ip`, zero when it has none. */
  function Count(tt: TimeoutTracker, ip: string): int {
    Tracker.Get(tt.counts, ip, 0)
  }

  /** The registration loop of `newTimeoutTracker`: each address gets flag false and
      count 0; addresses not listed keep what they had. */
  function Register(tt: TimeoutTracker, ips: seq<string>): (r: TimeoutTracker)
    ensures r.replies.vals.Keys == tt.replies.vals.Keys + set ip | ip in ips
    ensures r.counts.vals.Keys == tt.counts.vals.Keys + set ip | ip in ips
    ensures forall ip :: ip in ips ==> r.replies.vals[ip] == false && r.counts.vals[ip] == 0
    ensures forall ip :: ip in tt.replies.vals && ip !in ips ==> r.replies.vals[ip] == tt.replies.vals[ip]
    ensures forall ip :: ip in tt.counts.vals && ip !in ips ==> r.counts.vals[ip] == tt.counts.vals[ip]
    decreases |ips|
  {
    if |ips| == 0 then tt
    else
      Register(TimeoutTracker(Tracker.Set(tt.replies, ips[0], false), Tracker.Set(tt.counts, ips[0], 0)), ips[1..])
  }

  /** `newTimeoutTracker`: exactly the given addresses are tracked, none has replied and
      every streak is zero. */
  function New(ips: seq<string>): (tt: TimeoutTracker)
    ensures tt.replies.vals.Keys == tt.counts.vals.Keys == set ip | ip in ips
    ensures forall ip :: ip in tt.replies.vals ==> !tt.replies.vals[ip] && tt.counts.vals[ip] == 0
  {
    Register(TimeoutTracker(Tracker.New(), Tracker.New()), ips)
  }

  /** `replyReceived`: flag the address; an address not yet tracked becomes tracked. */
  function ReplyReceived(tt: TimeoutTracker, ip: string): (r: TimeoutTracker)
    ensures r.replies.vals.Keys == tt.replies.vals.Keys + {ip} && r.replies.vals[ip]
    ensures forall other :: other in tt.replies.vals && other != ip ==> r.replies.vals[other] == tt.replies.vals[other]
    ensures r.counts == tt.counts
  {
    tt.(replies := Tracker.Set(tt.replies, ip, true))
  }

  /** Receiving the same reply twice is the same as receiving it once. */
  lemma ReplyReceivedIdempotent(tt: TimeoutTracker, ip: string)
    ensures ReplyReceived(ReplyReceived(tt, ip), ip) == ReplyReceived(tt, ip)
  {
  }

  /** `resetCount`: zero one streak; flags and the other streaks stay. */
  function ResetCount(tt: TimeoutTracker, ip: string): (r: TimeoutTracker)
    ensures Count(r, ip) == 0
    ensures forall other :: other != ip ==> Count(r, other) == Count(tt, other)
    ensures r.replies == tt.replies
  {
    tt.(counts := Tracker.Set(tt.counts, ip, 0))
  }

  /** The counts a round leaves: a replied address goes back to 0, an unreplied one
      grows by one, an address with no flag keeps its count. */
  function NextCounts(tt: TimeoutTracker): map<string, int> {
    map ip | ip in tt.counts.vals.Keys + tt.replies.vals.Keys ::
      if ip !in tt.replies.vals then tt.counts.vals[ip]
      else if tt.replies.vals[ip] then 0
      else Count(tt, ip) + 1
  }

  /** The state a `getTimeouts` round leaves, independent of the visiting order. */
  function Advance(tt: TimeoutTracker): (r: TimeoutTracker)
    ensures r.replies.vals.Keys == tt.replies.vals.Keys
    ensures forall ip :: ip in r.replies.vals ==> !r.replies.vals[ip]
  {
    TimeoutTracker(Tracker.SetAll(tt.replies, false), Tracker.Tracker(NextCounts(tt)))
  }

  /** The losses reported for the unreplied addresses `ips`, each with its new streak. */
  function Reported(tt: TimeoutTracker, ips: seq<string>): seq<Timeout> {
    seq(|ips|, i requires 0 <= i < |ips| => Timeout(ips[i], Count(tt, ips[i]) + 1))
  }

  lemma ReportedSnoc(tt: TimeoutTracker, ips: seq<string>, ip: string)
    ensures Reported(tt, ips + [ip]) == Reported(tt, ips) + [Timeout(ip, Count(tt, ip) + 1)]
  {
  }

  /** The counts part-way through a round, once the addresses in `visited` are done. */
  ghost function PartialCounts(tt: TimeoutTracker, visited: seq<string>): map<string, int> {
    tt.counts.vals + map ip | ip in visited && ip in tt.replies.vals :: NextCounts(tt)[ip]
  }

  /** Visiting one more flagged address stores its new count; until then it reads as
      before the round. */
  lemma PartialCountsSnoc(tt: TimeoutTracker, visited: seq<string>, ip: string)
    requires ip in tt.replies.vals && ip !in visited
    ensures Tracker.Get(Tracker.Tracker(PartialCounts(tt, visited)), ip, 0) == Count(tt, ip)
    ensures PartialCounts(tt, visited + [ip])
      == PartialCounts(tt, visited)[ip := if tt.replies.vals[ip] then 0 else Count(tt, ip) + 1]
  {
  }

  /** Once every flagged address is visited, the counts are those of the round. */
  lemma PartialCountsDone(tt: TimeoutTracker, order: seq<string>)
    requires Enumerates(order, tt.replies.vals.Keys)
    ensures PartialCounts(tt, order) == NextCounts(tt)
  {
  }

  /** The next address of a walk that lists each flagged address once is flagged and
      not yet visited. */
  lemma NextUnvisited(tt: TimeoutTracker, order: seq<string>, i: nat)
    requires Enumerates(order, tt.replies.vals.Keys) && i < |order|
    ensures order[i] in tt.replies.vals && order[i] !in order[..i]
    ensures order[..i + 1] == order[..i] + [order[i]]
  {
    assert order[i] in order;
  }

  /** A finished walk leaves the state of the round, whatever the order. */
  lemma RoundDone(tt: TimeoutTracker, order: seq<string>, counts: Tracker.Tracker<int>)
    requires Enumerates(order, tt.replies.vals.Keys)
    requires counts.vals == PartialCounts(tt, order)
    ensures TimeoutTracker(Tracker.SetAll(tt.replies, false), counts) == Advance(tt)
  {
    PartialCountsDone(tt, order);
  }

  /** One iteration of the `getTimeouts` loop: the flag of `ip` decides whether its
      streak grows and is reported or goes back to zero. */
  method Visit(tt: TimeoutTracker, visited: seq<string>, ip: string, counts: Tracker.Tracker<int>, timeouts: seq<Timeout>)
    returns (counts': Tracker.Tracker<int>, timeouts': seq<Timeout>)
    requires ip in tt.replies.vals && ip !in visited
    requires counts.vals == PartialCounts(tt, visited)
    requires timeouts == Reported(tt, CollectUnreplied(tt.replies.vals, visited))
    ensures counts'.vals == PartialCounts(tt, visited + [ip])
    ensures timeouts' == Reported(tt, CollectUnreplied(tt.replies.vals, visited + [ip]))
  {
    PartialCountsSnoc(tt, visited, ip);
    CollectUnrepliedSnoc(tt.replies.vals, visited, ip);
    if !tt.replies.vals[ip] {
      var count := Tracker.Get(counts, ip, 0) + 1;
      counts' := Tracker.Set(counts, ip, count);
      ReportedSnoc(tt, CollectUnreplied(tt.replies.vals, visited), ip);
      timeouts' := timeouts + [Timeout(ip, count)];
    } else {
      counts' := Tracker.Set(counts, ip, 0);
      timeouts' := timeouts;
    }
  }

  /** `getTimeouts`: visit the flags in `order` (Go's map order), report every address
      without a reply with its streak increased by one and store that streak, zero the
      streak of every address that replied, then clear all flags. */
  method GetTimeouts(tt: TimeoutTracker, order: seq<string>) returns (next: TimeoutTracker, timeouts: seq<Timeout>)
    requires Enumerates(order, tt.replies.vals.Keys)
    ensures next == Advance(tt)
    ensures timeouts == Reported(tt, CollectUnreplied(tt.replies.vals, order))
  {
    var counts := tt.counts;
    timeouts := [];
    var i := 0;
    assert PartialCounts(tt, order[..0]) == tt.counts.vals;
    while i < |order|
      invariant 0 <= i <= |order|
      invariant counts.vals == PartialCounts(tt, order[..i])
      invariant timeouts == Reported(tt, CollectUnreplied(tt.replies.vals, order[..i]))
    {
      NextUnvisited(tt, order, i);
      counts, timeouts := Visit(tt, order[..i], order[i], counts, timeouts);
      i := i + 1;
    }
    assert order[..i] == order;
    RoundDone(tt, order, counts);
    next := TimeoutTracker(Tracker.SetAll(tt.replies, false), counts);
  }

  /** Every address without a reply is reported exactly once, with the streak the round
      stores for it; an address that replied is not reported and its streak is zeroed. */
  lemma ReportedExactly(tt: TimeoutTracker, order: seq<string>)
    requires Enumerates(order, tt.replies.vals.Keys)
    ensures var r := Reported(tt, CollectUnreplied(tt.replies.vals, order));
      (forall i, j :: 0 <= i < j < |r| ==> r[i].ip != r[j].ip)
      && (forall ip :: (exists i :: 0 <= i < |r| && r[i].ip == ip) <==> ip in Unreplied(tt.replies.vals))
      && (forall i :: 0 <= i < |r| ==> r[i].count == Count(Advance(tt), r[i].ip))
    ensures forall ip :: ip in tt.replies.vals && tt.replies.vals[ip] ==> Count(Advance(tt), ip) == 0
  {
    var c := CollectUnreplied(tt.replies.vals, order);
    var r := Reported(tt, c);
    CollectUnrepliedExactly(tt.replies.vals, order);
    forall ip ensures (exists i :: 0 <= i < |r| && r[i].ip == ip) <==> ip in Unreplied(tt.replies.vals) {
      if ip in Unreplied(tt.replies.vals) {
        var i :| 0 <= i < |c| && c[i] == ip;
        assert r[i].ip == ip;
      }
    }
    forall i | 0 <= i < |r| ensures r[i].count == Count(Advance(tt), r[i].ip) {
      assert c[i] in c;
      assert c[i] in Unreplied(tt.replies.vals);
    }
  }

  /** `k` rounds of `getTimeouts`. */
  function AdvanceN(tt: TimeoutTracker, k: nat): TimeoutTracker
    decreases k
  {
    if k == 0 then tt else AdvanceN(Advance(tt), k - 1)
  }

  /** An address that gets no reply for `k` rounds ends them with its streak grown by
      `k`; it stays tracked with its flag false. */
  lemma {:induction false} MissStreak(tt: TimeoutTracker, ip: string, k: nat)
    requires ip in tt.replies.vals && !tt.replies.vals[ip]
    ensures ip in AdvanceN(tt, k).replies.vals && !AdvanceN(tt, k).replies.vals[ip]
    ensures Count(AdvanceN(tt, k), ip) == Count(tt, ip) + k
    decreases k
  {
    if k > 0 {
      MissStreak(Advance(tt), ip, k - 1);
    }
  }

  /** After a round with a reply, the next `k` rounds without one report the streaks
      1, 2, ..., k: round `k + 1` reports `k + 1`. */
  lemma StreakRestartsAfterReply(tt: TimeoutTracker, ip: string, k: nat, order: seq<string>)
    requires Enumerates(order, AdvanceN(Advance(ReplyReceived(tt, ip)), k).replies.vals.Keys)
    ensures var s := AdvanceN(Advance(ReplyReceived(tt, ip)), k);
      Timeout(ip, k + 1) in Reported(s, CollectUnreplied(s.replies.vals, order))
  {
    var s0 := Advance(ReplyReceived(tt, ip));
    assert Count(s0, ip) == 0;
    MissStreak(s0, ip, k);
    var s := AdvanceN(s0, k);
    var c := CollectUnreplied(s.replies.vals, order);
    CollectUnrepliedExactly(s.replies.vals, order);
    assert ip in Unreplied(s.replies.vals);
    assert ip in c;
    var i :| 0 <= i < |c| && c[i] == ip;
    assert Reported(s, c)[i] == Timeout(ip, k + 1);
  }

  /** A fresh tracker reports every address with streak 1 after the first silent
      round. */
  lemma FirstRoundAfterNew(ips: seq<string>, ip: string)
    requires ip in ips
    ensures Count(Advance(New(ips)), ip) == 1
  {
  }
}

=== FILE: timestamp.dfy ===
/** The probe payload codec of internal/utils/timestamp.go: an instant, held as its
    signed 64-bit count of Unix nanoseconds, is written as the 8 big-endian bytes of
    its two's-complement form, and read back from the first 8 bytes of a payload. */
module Timestamp {

  const TWO_63: int := 0x8000_0000_0000_0000
  const TWO_64: int := 0x1_0000_0000_0000_0000

  type byte = b: int | 0 <= b < 256
  /** Go's `int64`, the type of `time.Time.UnixNano()`. */
  type int64 = x: int | -0x8000_0000_0000_0000 <= x < 0x8000_0000_0000_0000
  /** Go's `uint64`. */
  type uint64 = x: int | 0 <= x < 0x1_0000_0000_0000_0000

  function Pow256(n: nat): (r: nat)
    ensures r > 0
  {
    if n == 0 then 1 else 256 * Pow256(n - 1)
  }

  /** `uint64(ts)`: the two's-complement reading of a signed value. */
  function ToUnsigned(ts: int64): (u: uint64)
    ensures u % TWO_64 == ts % TWO_64
  {
    if ts < 0 then ts + TWO_64 else ts
  }

  /** `int64(u)`: the signed reading of a 64-bit pattern. */
  function ToSigned(u: uint64): (ts: int64)
    ensures ToUnsigned(ts) == u
  {
    if u >= TWO_63 then u - TWO_64 else u
  }

  lemma SignedUnsignedInverse(ts: int64)
    ensures ToSigned(ToUnsigned(ts)) == ts
  {
  }

  /** The low `n` bytes of `v`, most significant first. */
  function EncodeBE(v: nat, n: nat): (r: seq<byte>)
    ensures |r| == n
  {
    if n == 0 then [] else EncodeBE(v / 256, n - 1) + [v % 256]
  }

  /** The unsigned number whose big-endian bytes are `b`. */
  function DecodeBE(b: seq<byte>): (r: nat)
    ensures r < Pow256(|b|)
  {
    if |b| == 0 then 0 else DecodeBE(b[..|b| - 1]) * 256 + b[|b| - 1]
  }

  /** A positive multiple of a positive number is at least that number. */
  lemma {:induction false} MulAtLeast(d: int, k: int)
    requires d > 0 && k >= 1
    ensures d * k >= d
  {
    if k > 1 {
      MulAtLeast(d, k - 1);
      assert d * k == d * (k - 1) + d;
    }
  }

  /** Division and remainder are unique: the arithmetic fact behind both round trips. */
  lemma DivModUnique(v: int, d: int, q: int, m: int)
    requires d > 0 && 0 <= m < d && v == d * q + m
    ensures v / d == q && v % d == m
  {
    var q' := v / d;
    var m' := v % d;
    assert d * q - d * q' == m' - m;
    if q > q' {
      assert d * (q - q') == d * q - d * q';
      MulAtLeast(d, q - q');
    } else if q < q' {
      assert d * (q' - q) == d * q' - d * q;
      MulAtLeast(d, q' - q);
    }
  }

  /** Splitting off the lowest byte before dividing or reducing by `p` more bytes. */
  lemma DivModByteSplit(v: nat, p: nat)
    requires p > 0
    ensures v / (256 * p) == (v / 256) / p
    ensures v % (256 * p) == ((v / 256) % p) * 256 + v % 256
  {
    var q, r := v / 256, v % 256;
    var a, b := q / p, q % p;
    assert q == p * a + b;
    assert v == (256 * p) * a + (256 * b + r) by {
      calc {
        v;
        256 * q + r;
        256 * (p * a + b) + r;
        (256 * p) * a + (256 * b + r);
      }
    }
    assert 256 * b + r < 256 * p by {
      assert b <= p - 1;
      assert 256 * b <= 256 * (p - 1);
    }
    DivModUnique(v, 256 * p, a, 256 * b + r);
  }

  /** Decoding an encoding recovers the value modulo the width. */
  lemma {:induction false} DecodeEncode(v: nat, n: nat)
    ensures DecodeBE(EncodeBE(v, n)) == v % Pow256(n)
  {
    if n > 0 {
      var e := EncodeBE(v, n);
      assert e[..n - 1] == EncodeBE(v / 256, n - 1);
      DecodeEncode(v / 256, n - 1);
      DivModByteSplit(v, Pow256(n - 1));
    }
  }

  /** Encoding a decoded byte string gives the bytes back. */
  lemma {:induction false} EncodeDecode(b: seq<byte>)
    ensures EncodeBE(DecodeBE(b), |b|) == b
  {
    if |b| > 0 {
      var n := |b|;
      var d := DecodeBE(b);
      assert d / 256 == DecodeBE(b[..n - 1]) && d % 256 == b[n - 1];
      EncodeDecode(b[..n - 1]);
      assert b == b[..n - 1] + [b[n - 1]];
    }
  }

  /** Byte `i` of an `n`-byte encoding is digit `n - 1 - i` of `v` in base 256. */
  lemma {:induction false} EncodeDigit(v: nat, n: nat, i: nat)
    requires i < n
    ensures EncodeBE(v, n)[i] == (v / Pow256(n - 1 - i)) % 256
  {
    if i < n - 1 {
      EncodeDigit(v / 256, n - 1, i);
      DivModByteSplit(v, Pow256(n - 2 - i));
    }
  }

  /** `TimeToBinary`: the 8-byte big-endian two's-complement form of the instant. */
  function TimeToBinary(ns: int64): (r: seq<byte>)
    ensures |r| == 8
    ensures DecodeBE(r) == ToUnsigned(ns)
  {
    DecodeEncode(ToUnsigned(ns), 8);
    EncodeBE(ToUnsigned(ns), 8)
  }

  /** Byte i of the encoding is digit 7 - i of the two's-complement value in base 256:
      the most significant byte comes first. */
  lemma TimeToBinaryDigits(ns: int64, i: nat)
    requires i < 8
    ensures TimeToBinary(ns)[i] == (ToUnsigned(ns) / Pow256(7 - i)) % 256
  {
    EncodeDigit(ToUnsigned(ns), 8, i);
  }

  /** `BinaryToTime`: Go's `binary.BigEndian.Uint64` panics on fewer than 8 bytes and
      reads only the first 8; the instant is their signed reading. */
  function BinaryToTime(b: seq<byte>): (ns: int64)
    requires |b| >= 8
    ensures ToUnsigned(ns) == DecodeBE(b[..8])
  {
    ToSigned(DecodeBE(b[..8]))
  }

  /** Every instant survives encoding and decoding to the nanosecond. */
  lemma TimeRoundTrip(ns: int64)
    ensures BinaryToTime(TimeToBinary(ns)) == ns
  {
    var b := TimeToBinary(ns);
    assert b[..8] == b;
  }

  /** Every 8-byte payload prefix survives decoding and re-encoding. */
  lemma BytesRoundTrip(b: seq<byte>)
    requires |b| >= 8
    ensures TimeToBinary(BinaryToTime(b)) == b[..8]
  {
    EncodeDecode(b[..8]);
  }

  /** Only the first 8 bytes matter: trailing payload never changes the instant. */
  lemma DecodeIgnoresTail(b: seq<byte>, tail: seq<byte>)
    requires |b| >= 8
    ensures BinaryToTime(b + tail) == BinaryToTime(b)
  {
    assert (b + tail)[..8] == b[..8];
  }
}

=== FILE: traceroute.dfy ===
/** The TTL walk of internal/network/traceroute.go. For TTL i = 1..30 it opens a
    socket, sends an Echo with TTL i, sequence number i and a fresh random identifier,
    and reads the messages that come back until the read times out: routers on the way
    answer with Time Exceeded (RFC 792) once the TTL runs out (section 3.1 of RFC 791),
    and the target answers with an Echo Reply. What happens at each TTL is an input:
    whether the socket and the send succeeded, the identifier drawn, and the messages
    read. Reverse DNS (`net.LookupAddr`) is an uninterpreted function whose errors are
    ignored, as the source ignores them. */
module Traceroute {
  import opened Wrappers
  import opened Icmp

  const MAX_TTL: nat := 30

  /** `Hop`: the sender of a message and, for Echo Replies, its reverse-DNS names. */
  datatype Hop = Hop(peer: string, domains: seq<string>)

  /** What happens at one TTL. */
  datatype Step = Step(socketOk: bool, id: int, sendOk: bool, replies: seq<Message>)

  /** A probe that went out: its TTL, sequence number and identifier. */
  datatype Probe = Probe(ttl: nat, sequence: nat, id: int)

  datatype TraceError = SocketFailed(ttl: nat) | SendFailed(ttl: nat)

  /** The read loop of one TTL: the hops it adds, and whether the trace is complete
      (an Echo Reply with this TTL's identifier and sequence number arrived). Every
      Echo Reply adds a hop with names, matching or not; Time Exceeded adds a hop
      without names and ends this TTL; other messages add nothing. */
  function ReadHops(replies: seq<Message>, id: int, ttl: nat, lookup: string -> seq<string>): (seq<Hop>, bool)
  {
    if |replies| == 0 then ([], false)
    else
      match replies[0]
      case EchoReply(body, peer) =>
        var hop := Hop(peer, lookup(peer));
        if body.id == id && body.sequence == ttl then ([hop], true)
        else
          var (rest, done) := ReadHops(replies[1..], id, ttl, lookup);
          ([hop] + rest, done)
      case TimeExceeded(peer) => ([Hop(peer, [])], false)
      case _ => ReadHops(replies[1..], id, ttl, lookup)
  }

  /** The walk from TTL `ttl` on, after `hops` were gathered: the hops, or the error
      that discards them; and the probes sent, in order. */
  function Walk(steps: seq<Step>, ttl: nat, hops: seq<Hop>, lookup: string -> seq<string>): (r: (Result<seq<Hop>, TraceError>, seq<Probe>))
    requires 1 <= ttl && |steps| == MAX_TTL
    decreases MAX_TTL + 1 - ttl
  {
    if ttl > MAX_TTL then (Success(hops), [])
    else
      var step := steps[ttl - 1];
      if !step.socketOk then (Failure(SocketFailed(ttl)), [])
      else
        var probe := Probe(ttl, ttl, step.id);
        if !step.sendOk then (Failure(SendFailed(ttl)), [probe])
        else
          var (found, done) := ReadHops(step.replies, step.id, ttl, lookup);
          if done then (Success(hops + found), [probe])
          else
            var (result, probes) := Walk(steps, ttl + 1, hops + found, lookup);
            (result, [probe] + probes)
  }

  /** `Traceroute`: the walk from TTL 1 with no hops. */
  function Trace(steps: seq<Step>, lookup: string -> seq<string>): (Result<seq<Hop>, TraceError>, seq<Probe>)
    requires |steps| == MAX_TTL
  {
    Walk(steps, 1, [], lookup)
  }

  /** Probe number k uses TTL and sequence number `ttl + k` and that TTL's identifier,
      and no more than the remaining TTLs are probed. */
  lemma {:induction false} WalkProbes(steps: seq<Step>, ttl: nat, hops: seq<Hop>, lookup: string -> seq<string>)
    requires 1 <= ttl <= MAX_TTL + 1 && |steps| == MAX_TTL
    ensures var probes := Walk(steps, ttl, hops, lookup).1;
      |probes| <= MAX_TTL + 1 - ttl
      && forall k :: 0 <= k < |probes| ==> probes[k] == Probe(ttl + k, ttl + k, steps[ttl + k - 1].id)
    decreases MAX_TTL + 1 - ttl
  {
    if ttl <= MAX_TTL {
      var step := steps[ttl - 1];
      if step.socketOk && step.sendOk {
        var (found, done) := ReadHops(step.replies, step.id, ttl, lookup);
        if !done {
          WalkProbes(steps, ttl + 1, hops + found, lookup);
          assert Walk(steps, ttl, hops, lookup).1
            == [Probe(ttl, ttl, step.id)] + Walk(steps, ttl + 1, hops + found, lookup).1;
        }
      }
    }
  }

  /** Probe i of a trace has TTL i and sequence number i, for i = 1..30 at most. */
  lemma TraceProbes(steps: seq<Step>, lookup: string -> seq<string>)
    requires |steps| == MAX_TTL
    ensures var probes := Trace(steps, lookup).1;
      |probes| <= MAX_TTL && forall k :: 0 <= k < |probes| ==> probes[k].ttl == probes[k].sequence == k + 1
  {
    WalkProbes(steps, 1, [], lookup);
  }

  /** A trace fails only because a socket or a send failed at some TTL from `ttl` on
      (index `t` is TTL `t + 1`); the hops gathered so far are then thrown away. */
  lemma {:induction false} WalkFailureDiscardsHops(steps: seq<Step>, ttl: nat, hops: seq<Hop>, lookup: string -> seq<string>)
    requires 1 <= ttl && |steps| == MAX_TTL
    requires Walk(steps, ttl, hops, lookup).0.Failure?
    ensures exists t :: ttl - 1 <= t < MAX_TTL && (!steps[t].socketOk || !steps[t].sendOk)
    decreases MAX_TTL + 1 - ttl
  {
    var step := steps[ttl - 1];
    if step.socketOk && step.sendOk {
      var (found, done) := ReadHops(step.replies, step.id, ttl, lookup);
      WalkFailureDiscardsHops(steps, ttl + 1, hops + found, lookup);
    }
  }

  /** The hops of a TTL whose messages are `replies`, prepended to whatever the rest of
      the walk finds: hops are ordered by TTL, and by arrival within a TTL. */
  lemma {:induction false} WalkAppends(steps: seq<Step>, ttl: nat, hops: seq<Hop>, lookup: string -> seq<string>)
    requires 1 <= ttl && |steps| == MAX_TTL
    requires Walk(steps, ttl, hops, lookup).0.Success?
    ensures var all := Walk(steps, ttl, hops, lookup).0.value;
      |hops| <= |all| && all[..|hops|] == hops
    decreases MAX_TTL + 1 - ttl
  {
    if ttl <= MAX_TTL {
      var step := steps[ttl - 1];
      var (found, done) := ReadHops(step.replies, step.id, ttl, lookup);
      if !done {
        WalkAppends(steps, ttl + 1, hops + found, lookup);
        var all := Walk(steps, ttl, hops, lookup).0.value;
        assert all[..|hops + found|] == hops + found;
        assert all[..|hops|] == (hops + found)[..|hops|];
      }
    }
  }

  /** A TTL answered by one router with Time Exceeded. */
  predicate RouterStep(s: Step, router: string) {
    s.socketOk && s.sendOk && |s.replies| > 0 && s.replies[0] == TimeExceeded(router)
  }

  /** TTLs `lo + 1` to `hi` (indices `lo` to `hi - 1`) are each answered by their
      router. */
  predicate RoutersAnswer(steps: seq<Step>, routers: seq<string>, lo: nat, hi: nat)
    requires hi <= |steps| && hi <= |routers|
  {
    forall t :: lo <= t < hi ==> RouterStep(steps[t], routers[t])
  }

  /** The hops the routers of indices `lo` to `hi - 1` add: each its address, no
      names. */
  function RouterHops(routers: seq<string>, lo: nat, hi: nat): (r: seq<Hop>)
    requires lo <= hi <= |routers|
    decreases hi - lo
    ensures |r| == hi - lo
    ensures forall i :: 0 <= i < |r| ==> r[i] == Hop(routers[lo + i], [])
  {
    if lo == hi then [] else [Hop(routers[lo], [])] + RouterHops(routers, lo + 1, hi)
  }

  /** The probes of TTLs `lo + 1` to `hi`. */
  function ProbesBetween(steps: seq<Step>, lo: nat, hi: nat): (r: seq<Probe>)
    requires lo <= hi <= |steps|
    decreases hi - lo
    ensures |r| == hi - lo
  {
    if lo == hi then [] else [Probe(lo + 1, lo + 1, steps[lo].id)] + ProbesBetween(steps, lo + 1, hi)
  }

  /** A router's answer adds its hop and moves on to the next TTL. */
  lemma RouterStepAdvances(steps: seq<Step>, ttl: nat, hops: seq<Hop>, router: string, lookup: string -> seq<string>)
    requires 1 <= ttl <= MAX_TTL && |steps| == MAX_TTL
    requires RouterStep(steps[ttl - 1], router)
    ensures Walk(steps, ttl, hops, lookup).0 == Walk(steps, ttl + 1, hops + [Hop(router, [])], lookup).0
    ensures Walk(steps, ttl, hops, lookup).1
      == [Probe(ttl, ttl, steps[ttl - 1].id)] + Walk(steps, ttl + 1, hops + [Hop(router, [])], lookup).1
  {
    var step := steps[ttl - 1];
    assert ReadHops(step.replies, step.id, ttl, lookup) == ([Hop(router, [])], false);
  }

  /** If TTLs `ttl..h-1` are each answered by a router and TTL h by the target's
      matching Echo Reply, the walk ends at h with one hop per TTL, the target's last. */
  lemma {:induction false} WalkReachesTarget(steps: seq<Step>, ttl: nat, h: nat, hops: seq<Hop>,
                                             routers: seq<string>, target: string, data: seq<Timestamp.byte>,
                                             lookup: string -> seq<string>)
    requires 1 <= ttl <= h <= MAX_TTL && |steps| == MAX_TTL && |routers| == MAX_TTL
    requires RoutersAnswer(steps, routers, ttl - 1, h - 1)
    requires var s := steps[h - 1];
      s.socketOk && s.sendOk && |s.replies| > 0 && s.replies[0] == EchoReply(Echo(s.id, h, data), target)
    ensures Walk(steps, ttl, hops, lookup).0
      == Success(hops + RouterHops(routers, ttl - 1, h - 1) + [Hop(target, lookup(target))])
    decreases h - ttl
  {
    if ttl < h {
      var hop := Hop(routers[ttl - 1], []);
      RouterStepAdvances(steps, ttl, hops, routers[ttl - 1], lookup);
      WalkReachesTarget(steps, ttl + 1, h, hops + [hop], routers, target, data, lookup);
      assert hops + [hop] + RouterHops(routers, ttl, h - 1) == hops + RouterHops(routers, ttl - 1, h - 1);
    } else {
      var step := steps[h - 1];
      assert ReadHops(step.replies, step.id, h, lookup) == ([Hop(target, lookup(target))], true);
      assert hops + [] == hops;
    }
  }

  /** A target reached at TTL h behind h - 1 routers gives exactly h hops, the target
      last with its names. */
  lemma TraceReachesTarget(steps: seq<Step>, h: nat, routers: seq<string>, target: string,
                           data: seq<Timestamp.byte>, lookup: string -> seq<string>)
    requires 1 <= h <= MAX_TTL && |steps| == MAX_TTL && |routers| == MAX_TTL
    requires RoutersAnswer(steps, routers, 0, h - 1)
    requires var s := steps[h - 1];
      s.socketOk && s.sendOk && |s.replies| > 0 && s.replies[0] == EchoReply(Echo(s.id, h, data), target)
    ensures Trace(steps, lookup).0.Success?
    ensures var hops := Trace(steps, lookup).0.value;
      |hops| == h && hops[h - 1] == Hop(target, lookup(target))
      && forall t :: 0 <= t < h - 1 ==> hops[t] == Hop(routers[t], [])
  {
    WalkReachesTarget(steps, 1, h, [], routers, target, data, lookup);
    assert [] + RouterHops(routers, 0, h - 1) == RouterHops(routers, 0, h - 1);
  }

  /** When only routers answer, all remaining TTLs are walked and each adds its
      router. */
  lemma {:induction false} WalkThroughRouters(steps: seq<Step>, ttl: nat, hops: seq<Hop>, routers: seq<string>,
                                              lookup: string -> seq<string>)
    requires 1 <= ttl <= MAX_TTL + 1 && |steps| == MAX_TTL && |routers| == MAX_TTL
    requires RoutersAnswer(steps, routers, ttl - 1, MAX_TTL)
    ensures Walk(steps, ttl, hops, lookup)
      == (Success(hops + RouterHops(routers, ttl - 1, MAX_TTL)), ProbesBetween(steps, ttl - 1, MAX_TTL))
    decreases MAX_TTL + 1 - ttl
  {
    if ttl <= MAX_TTL {
      var hop := Hop(routers[ttl - 1], []);
      RouterStepAdvances(steps, ttl, hops, routers[ttl - 1], lookup);
      WalkThroughRouters(steps, ttl + 1, hops + [hop], routers, lookup);
      assert hops + [hop] + RouterHops(routers, ttl, MAX_TTL) == hops + RouterHops(routers, ttl - 1, MAX_TTL);
    } else {
      assert hops + [] == hops;
    }
  }

  /** An unreachable target behind routers that all answer gives 30 hops and 30
      probes. */
  lemma TraceUnreachable(steps: seq<Step>, routers: seq<string>, lookup: string -> seq<string>)
    requires |steps| == MAX_TTL && |routers| == MAX_TTL
    requires RoutersAnswer(steps, routers, 0, MAX_TTL)
    ensures Trace(steps, lookup).0.Success? && |Trace(steps, lookup).0.value| == MAX_TTL
    ensures |Trace(steps, lookup).1| == MAX_TTL
  {
    WalkThroughRouters(steps, 1, [], routers, lookup);
  }

  /** A TTL that only draws messages other than Echo Reply and Time Exceeded (or none
      at all) adds no hop: the walk moves on to the next TTL with the hops it had, after
      sending this TTL's probe. */
  lemma SilentTtlAddsNothing(steps: seq<Step>, ttl: nat, hops: seq<Hop>, lookup: string -> seq<string>)
    requires 1 <= ttl <= MAX_TTL && |steps| == MAX_TTL
    requires var s := steps[ttl - 1];
      s.socketOk && s.sendOk
      && forall i :: 0 <= i < |s.replies| ==> s.replies[i].DestinationUnreachable? || s.replies[i].Other?
    ensures Walk(steps, ttl, hops, lookup).0 == Walk(steps, ttl + 1, hops, lookup).0
    ensures Walk(steps, ttl, hops, lookup).1 == [Probe(ttl, ttl, steps[ttl - 1].id)] + Walk(steps, ttl + 1, hops, lookup).1
  {
    var s := steps[ttl - 1];
    ReadHopsSkipsOthers(s.replies, [], s.id, ttl, lookup);
    assert s.replies + [] == s.replies;
    assert hops + [] == hops;
  }

  /** TTL index `t` is walked past: its socket and send succeed and its reads do not
      complete the trace. */
  predicate Continues(steps: seq<Step>, t: nat, lookup: string -> seq<string>)
    requires t < |steps|
  {
    var s := steps[t];
    s.socketOk && s.sendOk && !ReadHops(s.replies, s.id, t + 1, lookup).1
  }

  /** The converse of `WalkFailureDiscardsHops`: when the walk reaches a TTL whose
      socket or send fails, it fails there, with that TTL in the error, whatever hops
      it had gathered. */
  lemma {:induction false} WalkFailsAtBrokenStep(steps: seq<Step>, ttl: nat, t: nat, hops: seq<Hop>,
                                                 lookup: string -> seq<string>)
    requires 1 <= ttl <= t <= MAX_TTL && |steps| == MAX_TTL
    requires forall k :: ttl - 1 <= k < t - 1 ==> Continues(steps, k, lookup)
    requires !steps[t - 1].socketOk || !steps[t - 1].sendOk
    ensures Walk(steps, ttl, hops, lookup).0
      == Failure(if !steps[t - 1].socketOk then SocketFailed(t) else SendFailed(t))
    decreases t - ttl
  {
    if ttl < t {
      var s := steps[ttl - 1];
      assert Continues(steps, ttl - 1, lookup);
      var (found, done) := ReadHops(s.replies, s.id, ttl, lookup);
      WalkFailsAtBrokenStep(steps, ttl + 1, t, hops + found, lookup);
    }
  }

  /** A trace that reaches a TTL whose socket or send fails returns that error and no
      hops. */
  lemma TraceFailsAtBrokenStep(steps: seq<Step>, t: nat, lookup: string -> seq<string>)
    requires 1 <= t <= MAX_TTL && |steps| == MAX_TTL
    requires forall k :: 0 <= k < t - 1 ==> Continues(steps, k, lookup)
    requires !steps[t - 1].socketOk || !steps[t - 1].sendOk
    ensures Trace(steps, lookup).0 == Failure(if !steps[t - 1].socketOk then SocketFailed(t) else SendFailed(t))
  {
    WalkFailsAtBrokenStep(steps, 1, t, [], lookup);
  }

  /** Messages other than Echo Reply and Time Exceeded are skipped. */
  lemma {:induction false} ReadHopsSkipsOthers(skipped: seq<Message>, rest: seq<Message>, id: int, ttl: nat,
                                               lookup: string -> seq<string>)
    requires forall i :: 0 <= i < |skipped| ==> skipped[i].DestinationUnreachable? || skipped[i].Other?
    ensures ReadHops(skipped + rest, id, ttl, lookup) == ReadHops(rest, id, ttl, lookup)
  {
    if |skipped| > 0 {
      assert (skipped + rest)[1..] == skipped[1..] + rest;
      ReadHopsSkipsOthers(skipped[1..], rest, id, ttl, lookup);
    } else {
      assert skipped + rest == rest;
    }
  }
}

=== FILE: tracker.dfy ===
/** The generic `Tracker[T]` of internal/utils/tracker.go: a string-keyed map whose
    missing keys read as the zero value of `T`. Go supplies that zero value implicitly;
    here it is a parameter. The mutex is left out: every operation is one atomic step. */
module Tracker {

  datatype Tracker<T> = Tracker(vals: map<string, T>)

  /** `NewTracker`: nothing tracked. */
  function New<T>(): (t: Tracker<T>)
    ensures t.vals.Keys == {}
  {
    Tracker(map[])
  }

  /** `Get`: the stored value, or the zero value for a key never set. */
  function Get<T>(t: Tracker<T>, key: string, zero: T): T {
    if key in t.vals then t.vals[key] else zero
  }

  /** `GetAll`: a copy of the contents. Being a value, later updates of the tracker
      cannot reach it. */
  function GetAll<T>(t: Tracker<T>): (m: map<string, T>)
    ensures m.Keys == t.vals.Keys
  {
    t.vals
  }

  /** `Set`: store one value. */
  function Set<T>(t: Tracker<T>, key: string, val: T): Tracker<T> {
    Tracker(t.vals[key := val])
  }

  /** `SetAll`: overwrite every tracked key; no key is added. */
  function SetAll<T>(t: Tracker<T>, val: T): Tracker<T> {
    Tracker(map k | k in t.vals :: val)
  }

  /** A key that was never set reads as the zero value. */
  lemma GetUnset<T>(t: Tracker<T>, key: string, zero: T)
    requires key !in t.vals
    ensures Get(t, key, zero) == zero
  {
  }

  /** A fresh tracker reads the zero value everywhere. */
  lemma GetNew<T>(key: string, zero: T)
    ensures Get(New<T>(), key, zero) == zero
  {
  }

  /** After `Set(k, v)`, `k` reads `v` and every other key reads as before. */
  lemma GetAfterSet<T>(t: Tracker<T>, key: string, val: T, other: string, zero: T)
    ensures Get(Set(t, key, val), key, zero) == val
    ensures other != key ==> Get(Set(t, key, val), other, zero) == Get(t, other, zero)
    ensures Set(t, key, val).vals.Keys == t.vals.Keys + {key}
  {
  }

  /** After `SetAll(v)` every tracked key reads `v`, untracked keys still read the zero
      value, and the key set is unchanged. */
  lemma GetAfterSetAll<T>(t: Tracker<T>, val: T, key: string, zero: T)
    ensures SetAll(t, val).vals.Keys == t.vals.Keys
    ensures Get(SetAll(t, val), key, zero) == if key in t.vals then val else zero
  {
  }

  /** `GetAll` agrees with `Get` on every key, tracked or not. */
  lemma GetAllAgrees<T>(t: Tracker<T>, key: string, zero: T)
    ensures key in GetAll(t) ==> GetAll(t)[key] == Get(t, key, zero)
    ensures key !in GetAll(t) ==> Get(t, key, zero) == zero
  {
  }

  /** The operations of a tracker; reads leave the contents as they are. */
  datatype Op<T> = GetOp(key: string) | GetAllOp | SetOp(key: string, val: T) | SetAllOp(val: T)

  function Apply<T>(t: Tracker<T>, op: Op<T>): Tracker<T> {
    match op
    case GetOp(_) => t
    case GetAllOp => t
    case SetOp(k, v) => Set(t, k, v)
    case SetAllOp(v) => SetAll(t, v)
  }

  function ApplyAll<T>(t: Tracker<T>, ops: seq<Op<T>>): Tracker<T>
    decreases |ops|
  {
    if |ops| == 0 then t else ApplyAll(Apply(t, ops[0]), ops[1..])
  }

  /** The keys named by the `Set`s of a history. */
  function SetKeys<T>(ops: seq<Op<T>>): set<string> {
    set i | 0 <= i < |ops| && ops[i].SetOp? :: ops[i].key
  }

  /** No operation removes a key: after any history the keys are the initial ones plus
      exactly those that some `Set` named. */
  lemma {:induction false} KeysOnlyGrow<T>(t: Tracker<T>, ops: seq<Op<T>>)
    ensures ApplyAll(t, ops).vals.Keys == t.vals.Keys + SetKeys(ops)
    decreases |ops|
  {
    if |ops| > 0 {
      var t' := Apply(t, ops[0]);
      KeysOnlyGrow(t', ops[1..]);
      var first: set<string> := if ops[0].SetOp? then {ops[0].key} else {};
      assert t'.vals.Keys == t.vals.Keys + first;
      assert SetKeys(ops) == first + SetKeys(ops[1..]) by {
        forall k | k in SetKeys(ops) ensures k in first + SetKeys(ops[1..]) {
          var i :| 0 <= i < |ops| && ops[i].SetOp? && ops[i].key == k;
          if i > 0 {
            assert ops[1..][i - 1] == ops[i];
          }
        }
        forall k | k in SetKeys(ops[1..]) ensures k in SetKeys(ops) {
          var i :| 0 <= i < |ops[1..]| && ops[1..][i].SetOp? && ops[1..][i].key == k;
          assert ops[i + 1] == ops[1..][i];
        }
      }
    } else {
      assert SetKeys(ops) == {};
    }
  }

  /** The writes of a history, in order: its reads removed. */
  function Writes<T>(ops: seq<Op<T>>): seq<Op<T>>
    decreases |ops|
  {
    if |ops| == 0 then []
    else (if ops[0].SetOp? || ops[0].SetAllOp? then [ops[0]] else []) + Writes(ops[1..])
  }

  /** `Get` and `GetAll` change nothing: a history ends in the same state as its writes
      alone. */
  lemma {:induction false} ReadsChangeNothing<T>(t: Tracker<T>, ops: seq<Op<T>>)
    ensures ApplyAll(t, ops) == ApplyAll(t, Writes(ops))
    decreases |ops|
  {
    if |ops| > 0 {
      ReadsChangeNothing(Apply(t, ops[0]), ops[1..]);
      if ops[0].SetOp? || ops[0].SetAllOp? {
        assert Writes(ops) == [ops[0]] + Writes(ops[1..]);
        assert Writes(ops)[1..] == Writes(ops[1..]);
      } else {
        assert Writes(ops) == Writes(ops[1..]);
        assert Apply(t, ops[0]) == t;
      }
    }
  }
}

=== FILE: wrappers.dfy ===
/** Failure-carrying results shared by every module of the model. Go's `(T, error)`
    pairs become `Result`, Go's bare `error` returns become `Outcome`. */
module Wrappers {

  datatype Option<+T> = None | Some(value: T)

  datatype Result<+T, +E> = Success(value: T) | Failure(error: E)

  datatype Outcome<+E> = Pass | Fail(error: E)
}
